=== FILE: README.md ===
# brewstats: the player join and lookup, in Dafny

brewstats is a two-page static site. The list page (`script.js`) loads two
CSV files: `fg.csv` holds MLB batters and `fg2.csv` holds minor-league
batters. It joins their rows into player records keyed by an id derived from
the player's name. It then shows the records filtered, sorted and counted.
The detail page (`player.js`) takes `?id=` from a link on the list page,
derives the id of every row again with its own copy of the normalisation,
and renders the first matching row of each file.

This project models that pipeline once the CSV text has been parsed. A row
is a `map<string, string>` from column header to cell, and a column the row
lacks reads as `undefined`. The modules follow the code:

- `Wrappers` and `Seqs` hold generic vocabulary: `Option`, order-preserving
  filter, count, subsequence, the first-occurrence order of a JavaScript
  `Map`'s keys (`Dedup`), and first-match search.
- `Text` holds the JavaScript string primitives the code relies on. `IsSpace`
  is the whitespace class that both regex `\s` and `trim` use. `Trim` is
  `String.prototype.trim` and `Lower` is `toLowerCase`.
- `Names` is `cleanName` (every `'` and `"` deleted, then trimmed) and
  `createPlayerId` (lower-case, delete everything outside `[a-z0-9\s]`, one
  hyphen per whitespace run). `NameExamples` works two examples out by proof.
- `JsParse` is the global `parseInt`.
- `Rows` gives cells their JavaScript meaning: truthiness,
  `cell || default` and `parseInt(cell) || default`. It also holds the row
  filter `player.Name && player.Name.trim()`.
- `Players` holds the records and statistics blocks built from a row.
- `Combine` is `combinePlayerData`. The `Map` is modelled as a map plus the
  insertion order of its keys. `Expected` is an independent reference
  definition of what each id ends up with.
- `ListView` holds the filter callback, the display comparator, a stable
  sort and the summary counts.
- `PlayerPage` holds `cleanName`/`createId` of the detail page, `findPlayer`,
  and what `renderPlayer` selects: the level tag, its CSS class, the
  sections and their order.

Some behaviour of the code that is easy to misread, and that the model
follows:

- `cleanName` deletes quote characters anywhere in the name, not only at
  its ends.
- Deriving the id twice is not idempotent. A second pass deletes the
  hyphens: `CreatePlayerId("a-b") == "ab"`.
- The list is not sorted by clickable columns. It is sorted by the fixed
  order MLB first, then level, then name.
- No OBP/SLG/OPS is derived.

## Model

| member | source | states |
|---|---|---|
| Text.Trim | script.js:135 | `trim` leaves no whitespace at either end and keeps only characters of the input |
| Text.TrimIsInfix | script.js:135 | the trimmed name is a contiguous piece of the input with only whitespace cut from each side |
| Text.TrimEmptyIffAllSpace | script.js:59 | `name.trim()` is empty exactly when the name is all whitespace |
| Text.Lower | script.js:139 | `toLowerCase` keeps the length and maps every character through the ASCII case rule |
| Names.StripQuotes | script.js:135 | the quote deletion keeps exactly the non-quote characters, in order, and shortens the name by its number of quotes |
| Names.CleanName | script.js:134-136 | a cleaned name contains no quote, only characters of the raw name, and no whitespace at either end |
| Names.CleanNameEmptyIff | script.js:134-136 | the cleaned name is empty exactly when the raw name is made of quotes and whitespace only |
| Names.QuoteOnlyName | script.js:134-136 | a non-empty all-quote name survives `trim` but cleans to `""` and derives the id `""` |
| Names.KeepIdChars | script.js:140 | the character deletion keeps exactly the `[a-z0-9]` and whitespace characters, in their order and with their multiplicity |
| Names.CreatePlayerId | script.js:138-142 | an id contains only `a-z`, `0-9` and `-`, and never two adjacent hyphens |
| Names.HyphenateNoDoubleHyphen | script.js:141 | replacing each whitespace run by one hyphen never produces `--` in hyphen-free text |
| Names.HyphenateContent | script.js:141 | apart from the hyphens, the hyphenated text is the input with its whitespace removed |
| Names.IdContent | script.js:138-142 | the letters and digits of the id are exactly those of the lower-cased name, in order |
| Names.IdSecondPassDropsHyphens | script.js:138-142 | deriving an id from an id deletes its hyphens, so the derivation is not idempotent |
| NameExamples.IdNotIdempotent | script.js:138-142 | `"a b"` gives `"a-b"`, whose own id is `"ab"` |
| NameExamples.IdOfONeill | script.js:134-142 | `"O'Neill Jr."` cleans to `"ONeill Jr."` and derives the id `"oneill-jr"` |
| JsParse.ParseInt | script.js:71-76 | `parseInt` of text without a single digit is NaN |
| JsParse.ParseIntRoundTrip | script.js:71-76 | `parseInt` reads back the decimal rendering of every integer, whatever non-numeric text follows it |
| JsParse.ParseIntSkipsSpace | script.js:119 | leading whitespace does not change what `parseInt` reads |
| Rows.IntOr | script.js:96-105 | `parseInt(cell) \|\| d` is the parsed value when the cell parses to a non-zero number, and `d` when the column is absent, the cell is NaN or it parses to 0 |
| Rows.IntOrReadsBack | script.js:119 | a cell holding a non-zero number reads back as that number, not as the default |
| Rows.TextOr | script.js:67 | `cell \|\| d` is the cell when it is present and non-empty, and the default otherwise |
| Rows.IntOrNoDigits | script.js:96-105 | a cell without a single digit parses to NaN, so `parseInt(cell) \|\| d` gives the default |
| Rows.AcceptedIff | script.js:59 | a row is used exactly when it has a `Name` with a non-whitespace character |
| Rows.QuoteOnlyRow | script.js:90-92 | a row named only by quotes is used, with name `""` and id `""` |
| Players.MilbBlock | script.js:94-107 | a minor-league block's level is the `Level` cell when non-empty and `'A'` otherwise, each counting column is read with the zero default, and `AVG` is the row's cell |
| Players.MlbBlock | script.js:70-82 | every field of an MLB block is its column read with the zero default, and every rate is the row's cell |
| Players.MlbRecord | script.js:63-84 | an MLB record carries the row's id and cleaned name, level `'MLB'`, age 27, the team cell or `'MIL'`, the position from `Def`, the row's MLB block and no minor-league block |
| Players.MilbRecord | script.js:113-123 | a minor-league-only record carries the row's id and cleaned name, no MLB block and the row's minor-league block |
| Players.MilbRecordDefaults | script.js:113-123 | a minor-league-only record's level and team are the non-empty cell, else `'A'` and `'MIL'`; its age is the parsed `Age` when non-zero, else 22; its position is `'OF'`; a counting column without digits is 0 |
| Players.RecordLevels | script.js:66-68 | MLB records have level `'MLB'` and age 27; a minor-league record is `'MLB'` only if its `Level` cell says so |
| Combine.Put | script.js:63 | `Map.set` keeps the table well formed, stores the record under its key and leaves every other key alone |
| Combine.CombinePlayerData | script.js:52-132 | the combined records have pairwise distinct ids, and each has at least one statistics block |
| Combine.CombineOrder | script.js:55-128 | there is one record per distinct id among the accepted rows of either file, in order of first appearance |
| Combine.CombineRecords | script.js:58-126 | each record is the reference record of its id: the last MLB row wins, else the first minor-league row, with the block of the last minor-league row |
| Combine.CombineBlocks | script.js:63-123 | `mlbStats` is present iff an accepted MLB row has the id, `milbStats` iff an accepted minor-league row has it, and a record with MLB stats keeps level `'MLB'` |
| Combine.MilbOnlyRecord | script.js:112-123 | a minor-league-only record takes name, level, team, age and position from its first row and its block from its last |
| Combine.MilbStepKeeps | script.js:109-111 | a minor-league row with a known id changes only that record's `milbStats`; key order and all other records are unchanged |
| Combine.Expected | script.js:58-126 | the reference record exists exactly for the ids of accepted rows |
| Combine.LastWith | script.js:63 | the last accepted row with an id exists iff the id occurs among the accepted rows, and is an accepted row with that id |
| Combine.LastWithIsLast | script.js:63 | the row `LastWith` finds has no later row with its id, and when it finds none no row has the id: a later `Map.set` overwrites an earlier one |
| Combine.FirstWith | script.js:109-124 | the first accepted row with an id exists iff the id occurs among the accepted rows, and is an accepted row with that id |
| Combine.FirstWithIsFirst | script.js:109-124 | the row `FirstWith` finds has no earlier row with its id, and when it finds none no row has the id: only a new id creates a minor-league record |
| Combine.CombineNames | script.js:59-65 | each record's id is derived from its name, so the records have pairwise distinct names |
| ListView.FilterPlayersSpec | script.js:170-179 | the filtered list is an order-preserving subsequence, and a record is kept iff its lower-cased name contains the lower-cased search text and the level filter is empty or equal to its level |
| ListView.FilterPlayersEmpty | script.js:174-179 | an empty search with no level filter keeps every record |
| ListView.SortPlayers | script.js:194-199 | sorting yields a permutation of the filtered list |
| ListView.Insert | script.js:194-199 | one insertion step adds exactly the inserted record |
| ListView.CompareTrans | script.js:194-199 | for a strict total order on strings the display comparator is transitive |
| ListView.DisplayOrder | script.js:194-199 | the sorted list is a permutation; every MLB record precedes every other; different levels are in level order; equal levels are in name order |
| ListView.CombinedNeverTie | script.js:194-199 | under a strict collation no two records of `combinePlayerData` compare equal, so no tie arises when they are sorted |
| ListView.RenderPlayers | script.js:185-199 | the list shows "No players found" exactly when the filtered list is empty, otherwise a permutation of it |
| ListView.UpdateSummary | script.js:250-255 | the MLB count is the number of shown records at level `'MLB'`, the minor-league count the number of the others; they add up to the number shown, and each is zero exactly when no record is of its kind |
| PlayerPage.PageCleanName | player.js:218-220 | the detail page's `cleanName` is the list page's, with `""` for a missing name |
| PlayerPage.CreateId | player.js:222-226 | the detail page's three-pass `createId` computes exactly the list page's `createPlayerId` |
| PlayerPage.LowerPass | player.js:223 | the lower-casing pass computes `toLowerCase` |
| PlayerPage.DropPass | player.js:224 | the deletion pass keeps exactly the `[a-z0-9\s]` characters |
| PlayerPage.HyphenPass | player.js:225 | scanning each whitespace run to its end and emitting one hyphen is `replace(/\s+/g, '-')` |
| PlayerPage.Find | player.js:42-48 | `find` returns nothing iff no row matches; otherwise it returns a matching row with no match before it |
| PlayerPage.FindPlayer | player.js:40-61 | "Player not found" iff no row of either file matches; otherwise the first match of each, named after the MLB row if there is one, else the minor-league row |
| PlayerPage.PageMatchAccepted | player.js:42-48 | for a non-empty id, a detail-page match is exactly an accepted list-page row with that id |
| PlayerPage.FindIsFirstWith | player.js:42-48 | for a non-empty id, `find` returns the first accepted row with the id |
| PlayerPage.FindSkipsNonMatching | player.js:42-48 | removing a row that does not match leaves the result of `find` unchanged |
| PlayerPage.BlankRowNeverMatches | player.js:31-36 | the row made of a blank line (first column `""` only) matches no id |
| PlayerPage.LinksResolve | player.js:42-53 | every id the list page produces is found by the detail page |
| PlayerPage.PageAgreesWithList | player.js:42-60 | the page finds an MLB row iff the record has `mlbStats` and a minor-league row iff it has `milbStats`; it names the player after the first MLB row where the list uses the last |
| PlayerPage.ReplaceFirstPlus | player.js:75 | text without `+` is unchanged by `replace('+', '-plus')` |
| PlayerPage.ReplaceFirstPlusSplit | player.js:75 | only the first `+` is replaced; everything after it is kept |
| PlayerPage.LevelSuffixPlus | player.js:171 | the class suffix is the level lower-cased with its first `+` spelled `-plus` |
| PlayerPage.LevelSuffixExamples | player.js:75 | `"A+"` gives `"a-plus"`, `"A++"` gives `"a-plus+"`, `"AAA"` gives `"aaa"` |
| PlayerPage.ShowPage | player.js:66-92 | the level tag shows `'MLB'` whenever an MLB row matched, else the minor-league level; the MLB section is present iff an MLB row matched, the minor-league section iff one matched, MLB first |
| PlayerPage.RenderPlayer | player.js:63-92 | nothing is rendered without a player; rendering fails exactly when the matched minor-league row has no `Level` column; otherwise the page shows the found name, `'MLB'` when an MLB row matched and else the row's `Level` with its class and the row's `Age`, and one section per matched file, MLB first |
| PlayerPage.RenderPlayerDefaulted | player.js:72-75 | with the list page's level default, a found player always renders, with the found name and the level `Level \|\| 'A'` for a minor-league-only player |
| PlayerPage.PageLevelMatchesList | player.js:68-77 | with the level default, the detail page shows the level the list page shows, for every listed player with a non-empty id |
| PlayerPage.MissingLevelBreaksPage | player.js:73-75 | as written, a minor-league-only row without `Level` is listed at level `'A'` but its detail page fails |

## Findings

| source | as written | input that shows it | evidently intended | confidence | as-written member | corrected member |
|---|---|---|---|---|---|---|
| player.js:73-75 | the minor-league `Level` cell is used without a default, and `level.toLowerCase()` is called on it | a minor-league-only row with a `Name` but without the `Level` column (a short CSV row); the list shows it at level `'A'` (script.js:117), and its detail page throws a TypeError that is reported as a loading error | the same `Level \|\| 'A'` default as the list page, so that the detail page shows the listed level | medium, not executed | PlayerPage.MissingLevelBreaksPage | PlayerPage.RenderPlayerDefaulted |

`PlayerPage.PageLevelMatchesList` proves the intended property of the
corrected definition. An empty `Level` cell shows the same divergence
without the failure: the list shows `'A'`, while the detail page shows an
empty tag with class `level-tag level-`.

## Left out

- Loading is left out: `fetch`, `Papa.parse`, `async`/`await` and `Promise.all`. The rows are given as already-parsed maps. On the list page a failed load leaves that file's rows empty (script.js:28-49). On the detail page an HTTP error response does the same (player.js:29-37), but a rejected `fetch` of either file aborts the page with "Error loading data" before any lookup (player.js:11-16, 24-27). That abort is not modelled. The list page parses with `skipEmptyLines: true` (script.js:32, 44) and the detail page without it (player.js:31, 36), so the detail page's row lists may also hold one row per blank line, holding only its first column set to `""`. The lemmas that compare the two pages give both the same rows. Such a row never matches (`PlayerPage.BlankRowNeverMatches`), and a non-matching row can be taken out without changing what `find` returns (`PlayerPage.FindSkipsNonMatching`), so their conclusions are unaffected.
- The DOM is left out: element lookups, event wiring, `innerHTML` templates, `showError`, the card markup of `renderPlayerCard`, and the statistics tables of `renderMLBStats`/`renderMILBStats`. From `renderPlayer` only the selection is kept: the name, the level tag and its class, the player type, the age text, and which sections appear in which order.
- Navigation is left out: `viewPlayer` and `URLSearchParams`. The requested id is an `Option<string>`, and `None` stands for a link without `?id=`.
- Floating point is left out: `parseFloat(x) || 0` and `toFixed`. A rate statistic is represented by the cell it is read from (`Rows.Rate`).
- `guessPosition` thresholds the floating-point `Def` cell. An MLB record's position is represented by that cell (`Players.Position.FromDefence`). `calculateAge` (always 27) and `guessPositionFromMilb` (always `'OF'`) are modelled as the constants they are.
- `getPlayerById` (script.js:264-266) is never called by either page.
- The scraper `scripts/scrape_fangraphs.py` is not part of this model. It does network I/O and HTML scraping.
- Text.Lower: only ASCII `A`-`Z` are lower-cased. JavaScript also lower-cases other letters. Two of those affect ids: the Kelvin sign U+212A becomes `k`, and U+0130 becomes `i` followed by a combining dot. Others change only case-insensitive search.
- JsParse.ParseInt: magnitudes are kept exact. JavaScript rounds values beyond 2^53 to the nearest double, and `-0` is represented by 0. Both fall back to the default under `|| d` in the same way.
- ListView.DisplayOrder: `localeCompare` is the parameter `collate`. The order is stated only for a `collate` that is a strict total order. Otherwise JavaScript's sort result is implementation-defined.
- ListView.SortPlayers: the stable insertion sort is the order `Array.prototype.sort` must produce with a consistent comparator. The order of records that compare equal (same level and same name) is not stated. Such ties do not arise for the records `combinePlayerData` produces, because their names are pairwise distinct (`ListView.CombinedNeverTie`).
- PlayerPage.PageAgreesWithList: stated for non-empty ids only. For the id `""`, the detail page also matches rows that the list page skips: a whitespace-only name has a truthy `Name` and derives `""`. `PlayerPage.LinksResolve` still holds for that id.
- PlayerPage.PageLevelMatchesList: stated for non-empty ids only, for the reason given on the line above. For the id `""` the page may find a row with a whitespace-only name, which the list skips, and show that row's level.
- `updateSummary` formats its counts into a sentence. The model keeps only the three numbers.

=== FILE: combine.dfy ===
/** `combinePlayerData` (script.js): the join of the MLB rows and the
    minor-league rows on the derived id.

    The JavaScript `Map` is a `Table`: the map from id to record plus the
    insertion order of its keys, which is the order `Array.from(map.values())`
    lists the records in. `set` on an existing key replaces the value and keeps
    the key's position. The MLB pass sets one record per accepted row, so a
    later row with the same id replaces an earlier one. The minor-league pass
    then either attaches a `milbStats` block to the record already under the id
    (again the last row wins) or creates a minor-league-only record. */
module Combine {
  import opened Wrappers
  import opened Seqs
  import opened Names
  import opened Rows
  import opened Players

  datatype Table = Table(order: seq<string>, byId: map<string, Player>)

  const Empty: Table := Table([], map[])

  /** The keys are listed once each, in `order`, and every record sits under its own id. */
  ghost predicate Valid(t: Table) {
    && Distinct(t.order)
    && (forall k :: k in t.byId <==> k in t.order)
    && (forall k :: k in t.byId ==> t.byId[k].id == k)
  }

  /** `map.set(k, p)`. */
  function Put(t: Table, k: string, p: Player): (r: Table)
    ensures Valid(t) && p.id == k ==> Valid(r)
    ensures k in r.byId && r.byId[k] == p
    ensures forall j :: j != k ==> (j in r.byId <==> j in t.byId)
    ensures forall j :: j != k && j in t.byId ==> r.byId[j] == t.byId[j]
  {
    Table(if k in t.byId then t.order else t.order + [k], t.byId[k := p])
  }

  /** One iteration of the MLB `forEach`. */
  function MlbStep(t: Table, row: Row): (r: Table) {
    if Accepted(row) then Put(t, RowId(row), MlbRecord(row)) else t
  }

  /** One iteration of the minor-league `forEach`. */
  function MilbStep(t: Table, row: Row): (r: Table) {
    if !Accepted(row) then t
    else
      var id := RowId(row);
      if id in t.byId then Table(t.order, t.byId[id := t.byId[id].(milbStats := Some(MilbBlock(row)))])
      else Put(t, id, MilbRecord(row))
  }

  function MlbPass(t: Table, rows: seq<Row>): (r: Table)
    decreases |rows|
  {
    if |rows| == 0 then t else MlbStep(MlbPass(t, rows[..|rows| - 1]), rows[|rows| - 1])
  }

  function MilbPass(t: Table, rows: seq<Row>): (r: Table)
    decreases |rows|
  {
    if |rows| == 0 then t else MilbStep(MilbPass(t, rows[..|rows| - 1]), rows[|rows| - 1])
  }

  /** The records in insertion order (`Array.from(map.values())`). */
  function Values(t: Table): (ps: seq<Player>)
    requires Valid(t)
    ensures |ps| == |t.order|
    ensures forall i :: 0 <= i < |ps| ==> ps[i] == t.byId[t.order[i]] && ps[i].id == t.order[i]
  {
    seq(|t.order|, i requires 0 <= i < |t.order| => t.byId[t.order[i]])
  }

  function IdsOf(ps: seq<Player>): (ids: seq<string>)
    ensures |ids| == |ps| && forall i :: 0 <= i < |ps| ==> ids[i] == ps[i].id
  {
    seq(|ps|, i requires 0 <= i < |ps| => ps[i].id)
  }

  /** `allPlayers` after `combinePlayerData` has run on the two row sets. */
  function CombinePlayerData(mlb: seq<Row>, milb: seq<Row>): (players: seq<Player>)
    ensures Distinct(IdsOf(players))
    ensures forall i :: 0 <= i < |players| ==> players[i].mlbStats.Some? || players[i].milbStats.Some?
  {
    var t := MilbPass(MlbPass(Empty, mlb), milb);
    MilbPassAgrees(mlb, milb);
    var ps := Values(t);
    assert IdsOf(ps) == t.order;
    forall i | 0 <= i < |ps| ensures ps[i].mlbStats.Some? || ps[i].milbStats.Some? {
      ExpectedHasBlock(mlb, milb, t.order[i]);
    }
    ps
  }

  // ---------------------------------------------------------------------
  // The reference definition: what each id ends up with

  /** The ids of the accepted rows, in row order (duplicates kept). */
  function AcceptedIds(rows: seq<Row>): (ids: seq<string>)
    ensures |ids| <= |rows|
  {
    if |rows| == 0 then []
    else AcceptedIds(rows[..|rows| - 1]) + (if Accepted(rows[|rows| - 1]) then [RowId(rows[|rows| - 1])] else [])
  }

  /** An accepted row whose derived id is `k`. */
  predicate HasId(row: Row, k: string) {
    Accepted(row) && RowId(row) == k
  }

  /** The last accepted row with id `k`. */
  function LastWith(rows: seq<Row>, k: string): (r: Option<Row>)
    ensures r.Some? ==> HasId(r.value, k) && r.value in rows
    ensures r.Some? <==> k in AcceptedIds(rows)
  {
    if |rows| == 0 then None
    else
      var last := rows[|rows| - 1];
      var prefix := rows[..|rows| - 1];
      assert rows == prefix + [last];
      if HasId(last, k) then Some(last) else LastWith(prefix, k)
  }

  /** The first accepted row with id `k`. */
  function FirstWith(rows: seq<Row>, k: string): (r: Option<Row>)
    ensures r.Some? ==> HasId(r.value, k) && r.value in rows
    ensures r.Some? <==> k in AcceptedIds(rows)
  {
    if |rows| == 0 then None
    else
      var last := rows[|rows| - 1];
      var prefix := rows[..|rows| - 1];
      assert rows == prefix + [last];
      var f := FirstWith(prefix, k);
      if f.Some? then f
      else if HasId(last, k) then Some(last)
      else None
  }

  /** `LastWith` finds an accepted row with the id behind which no row has it;
      when it finds nothing, no row has the id. */
  lemma {:induction false} LastWithIsLast(rows: seq<Row>, k: string)
    ensures var r := LastWith(rows, k);
            && (r.Some? ==> exists i :: 0 <= i < |rows| && rows[i] == r.value &&
                              forall j :: i < j < |rows| ==> !HasId(rows[j], k))
            && (r.None? ==> forall j :: 0 <= j < |rows| ==> !HasId(rows[j], k))
  {
    if |rows| > 0 {
      var last := rows[|rows| - 1];
      var prefix := rows[..|rows| - 1];
      assert rows == prefix + [last];
      LastWithIsLast(prefix, k);
      LastWithStep(rows, prefix, last, k, LastWith(prefix, k), LastWith(rows, k));
    }
  }

  /** `FirstWith` finds an accepted row with the id before which no row has it;
      when it finds nothing, no row has the id. */
  lemma {:induction false} FirstWithIsFirst(rows: seq<Row>, k: string)
    ensures var r := FirstWith(rows, k);
            && (r.Some? ==> exists i :: 0 <= i < |rows| && rows[i] == r.value &&
                              forall j :: 0 <= j < i ==> !HasId(rows[j], k))
            && (r.None? ==> forall j :: 0 <= j < |rows| ==> !HasId(rows[j], k))
  {
    if |rows| > 0 {
      var last := rows[|rows| - 1];
      var prefix := rows[..|rows| - 1];
      assert rows == prefix + [last];
      FirstWithIsFirst(prefix, k);
      FirstWithStep(rows, prefix, last, k, FirstWith(prefix, k), FirstWith(rows, k));
    }
  }

  /** The position facts of `LastWith` carry over from a prefix to one more row. */
  lemma LastWithStep(rows: seq<Row>, prefix: seq<Row>, last: Row, k: string, f: Option<Row>, r: Option<Row>)
    requires rows == prefix + [last]
    requires f.Some? ==> exists i :: 0 <= i < |prefix| && prefix[i] == f.value &&
                           forall j :: i < j < |prefix| ==> !HasId(prefix[j], k)
    requires f.None? ==> forall j :: 0 <= j < |prefix| ==> !HasId(prefix[j], k)
    requires r == if HasId(last, k) then Some(last) else f
    ensures r.Some? ==> exists i :: 0 <= i < |rows| && rows[i] == r.value &&
                          forall j :: i < j < |rows| ==> !HasId(rows[j], k)
    ensures r.None? ==> forall j :: 0 <= j < |rows| ==> !HasId(rows[j], k)
  {
    assert rows[|prefix|] == last;
    assert forall j :: 0 <= j < |prefix| ==> rows[j] == prefix[j];
    if !HasId(last, k) && f.Some? {
      var i :| 0 <= i < |prefix| && prefix[i] == f.value && forall j :: i < j < |prefix| ==> !HasId(prefix[j], k);
      assert rows[i] == f.value;
    }
  }

  /** The position facts of `FirstWith` carry over from a prefix to one more row. */
  lemma FirstWithStep(rows: seq<Row>, prefix: seq<Row>, last: Row, k: string, f: Option<Row>, r: Option<Row>)
    requires rows == prefix + [last]
    requires f.Some? ==> exists i :: 0 <= i < |prefix| && prefix[i] == f.value &&
                           forall j :: 0 <= j < i ==> !HasId(prefix[j], k)
    requires f.None? ==> forall j :: 0 <= j < |prefix| ==> !HasId(prefix[j], k)
    requires r == if f.Some? then f else if HasId(last, k) then Some(last) else None
    ensures r.Some? ==> exists i :: 0 <= i < |rows| && rows[i] == r.value &&
                          forall j :: 0 <= j < i ==> !HasId(rows[j], k)
    ensures r.None? ==> forall j :: 0 <= j < |rows| ==> !HasId(rows[j], k)
  {
    assert rows[|prefix|] == last;
    assert forall j :: 0 <= j < |prefix| ==> rows[j] == prefix[j];
    if f.Some? {
      var i :| 0 <= i < |prefix| && prefix[i] == f.value && forall j :: 0 <= j < i ==> !HasId(prefix[j], k);
      assert rows[i] == f.value;
    }
  }

  function BlockOf(row: Option<Row>): (b: Option<MilbStats>) {
    if row.Some? then Some(MilbBlock(row.value)) else None
  }

  /** The record `combinePlayerData` leaves under `k`: built from the last MLB row
      with that id if there is one, else from the first minor-league row with it;
      in both cases carrying the block of the last minor-league row with it. */
  function Expected(mlb: seq<Row>, milb: seq<Row>, k: string): (p: Option<Player>)
    ensures p.Some? <==> k in AcceptedIds(mlb) || k in AcceptedIds(milb)
  {
    match LastWith(mlb, k)
    case Some(r) => Some(MlbRecord(r).(milbStats := BlockOf(LastWith(milb, k))))
    case None =>
      match FirstWith(milb, k)
      case None => None
      case Some(f) => Some(MilbRecord(f).(milbStats := BlockOf(LastWith(milb, k))))
  }

  // ---------------------------------------------------------------------
  // The passes against the reference

  ghost predicate MlbAgrees(t: Table, mlb: seq<Row>) {
    && Valid(t)
    && t.order == Dedup(AcceptedIds(mlb))
    && forall k :: k in t.byId ==> LastWith(mlb, k).Some? && t.byId[k] == MlbRecord(LastWith(mlb, k).value)
  }

  ghost predicate Agrees(t: Table, mlb: seq<Row>, milb: seq<Row>) {
    && Valid(t)
    && t.order == Dedup(AcceptedIds(mlb) + AcceptedIds(milb))
    && forall k :: k in t.byId ==> Expected(mlb, milb, k).Some? && t.byId[k] == Expected(mlb, milb, k).value
  }

  lemma {:induction false} MlbPassAgrees(mlb: seq<Row>)
    ensures MlbAgrees(MlbPass(Empty, mlb), mlb)
  {
    if |mlb| > 0 {
      var prefix := mlb[..|mlb| - 1];
      var row := mlb[|mlb| - 1];
      assert prefix + [row] == mlb;
      MlbPassAgrees(prefix);
      MlbStepAgrees(MlbPass(Empty, prefix), prefix, row, mlb);
      assert MlbPass(Empty, mlb) == MlbStep(MlbPass(Empty, prefix), row);
    }
  }

  lemma {:induction false} MlbStepAgrees(t: Table, prefix: seq<Row>, row: Row, rows: seq<Row>)
    requires MlbAgrees(t, prefix) && rows == prefix + [row]
    ensures MlbAgrees(MlbStep(t, row), rows)
  {
    assert rows[..|rows| - 1] == prefix;
    var t' := MlbStep(t, row);
    if Accepted(row) {
      var id := RowId(row);
      assert AcceptedIds(rows) == AcceptedIds(prefix) + [id];
      assert id in Dedup(AcceptedIds(prefix)) <==> id in t.byId;
      forall k | k in t'.byId
        ensures LastWith(rows, k).Some? && t'.byId[k] == MlbRecord(LastWith(rows, k).value)
      {
        if k != id {
          assert LastWith(rows, k) == LastWith(prefix, k);
        }
      }
    } else {
      assert AcceptedIds(rows) == AcceptedIds(prefix);
      forall k | k in t'.byId
        ensures LastWith(rows, k) == LastWith(prefix, k)
      {
      }
    }
  }

  lemma {:induction false} MilbPassAgrees(mlb: seq<Row>, milb: seq<Row>)
    ensures Agrees(MilbPass(MlbPass(Empty, mlb), milb), mlb, milb)
  {
    if |milb| == 0 {
      MlbPassAgrees(mlb);
      var t := MlbPass(Empty, mlb);
      assert AcceptedIds(mlb) + AcceptedIds(milb) == AcceptedIds(mlb);
      forall k | k in t.byId
        ensures Expected(mlb, milb, k).Some? && t.byId[k] == Expected(mlb, milb, k).value
      {
        assert LastWith(milb, k) == None;
      }
    } else {
      var prefix := milb[..|milb| - 1];
      var row := milb[|milb| - 1];
      assert prefix + [row] == milb;
      MilbPassAgrees(mlb, prefix);
      MilbStepAgrees(MilbPass(MlbPass(Empty, mlb), prefix), mlb, prefix, row, milb);
      assert MilbPass(MlbPass(Empty, mlb), milb) == MilbStep(MilbPass(MlbPass(Empty, mlb), prefix), row);
    }
  }

  lemma {:induction false} MilbStepAgrees(t: Table, mlb: seq<Row>, prefix: seq<Row>, row: Row, rows: seq<Row>)
    requires Agrees(t, mlb, prefix) && rows == prefix + [row]
    ensures Agrees(MilbStep(t, row), mlb, rows)
  {
    assert rows[..|rows| - 1] == prefix;
    var t' := MilbStep(t, row);
    if Accepted(row) {
      MilbStepOrder(t, mlb, prefix, row);
      forall k | k in t'.byId
        ensures Expected(mlb, rows, k).Some? && t'.byId[k] == Expected(mlb, rows, k).value
      {
        if k != RowId(row) {
          MilbStepOther(t, mlb, prefix, row, k);
        } else if k in t.byId {
          MilbStepExisting(t, mlb, prefix, row);
        } else {
          MilbStepNew(t, mlb, prefix, row);
        }
      }
    } else {
      assert AcceptedIds(rows) == AcceptedIds(prefix);
      forall k | k in t'.byId
        ensures Expected(mlb, rows, k) == Expected(mlb, prefix, k)
      {
        assert LastWith(rows, k) == LastWith(prefix, k);
        assert FirstWith(rows, k) == FirstWith(prefix, k);
      }
    }
  }

  lemma {:induction false} MilbStepOrder(t: Table, mlb: seq<Row>, prefix: seq<Row>, row: Row)
    requires Valid(t) && t.order == Dedup(AcceptedIds(mlb) + AcceptedIds(prefix)) && Accepted(row)
    ensures Valid(MilbStep(t, row))
    ensures MilbStep(t, row).order == Dedup(AcceptedIds(mlb) + AcceptedIds(prefix + [row]))
  {
    var rows := prefix + [row];
    assert rows[..|rows| - 1] == prefix;
    var id := RowId(row);
    var before := AcceptedIds(mlb) + AcceptedIds(prefix);
    assert AcceptedIds(rows) == AcceptedIds(prefix) + [id];
    assert AcceptedIds(mlb) + AcceptedIds(rows) == before + [id];
    assert (before + [id])[..|before + [id]| - 1] == before;
    assert id in Dedup(before) <==> id in t.byId;
  }

  lemma {:induction false} MilbStepOther(t: Table, mlb: seq<Row>, prefix: seq<Row>, row: Row, k: string)
    requires Agrees(t, mlb, prefix) && Accepted(row) && k != RowId(row) && k in MilbStep(t, row).byId
    ensures Expected(mlb, prefix + [row], k) == Expected(mlb, prefix, k)
    ensures Expected(mlb, prefix, k).Some? && MilbStep(t, row).byId[k] == Expected(mlb, prefix, k).value
  {
    var rows := prefix + [row];
    assert rows[..|rows| - 1] == prefix;
    assert LastWith(rows, k) == LastWith(prefix, k);
    assert FirstWith(rows, k) == FirstWith(prefix, k);
  }

  lemma {:induction false} MilbStepExisting(t: Table, mlb: seq<Row>, prefix: seq<Row>, row: Row)
    requires Agrees(t, mlb, prefix) && Accepted(row) && RowId(row) in t.byId
    ensures Expected(mlb, prefix + [row], RowId(row)).Some?
    ensures MilbStep(t, row).byId[RowId(row)] == Expected(mlb, prefix + [row], RowId(row)).value
  {
    var rows := prefix + [row];
    var k := RowId(row);
    assert rows[..|rows| - 1] == prefix;
    assert LastWith(rows, k) == Some(row);
    if LastWith(mlb, k).None? {
      assert FirstWith(prefix, k).Some?;
      assert FirstWith(rows, k) == FirstWith(prefix, k);
    }
  }

  lemma {:induction false} MilbStepNew(t: Table, mlb: seq<Row>, prefix: seq<Row>, row: Row)
    requires Agrees(t, mlb, prefix) && Accepted(row) && RowId(row) !in t.byId
    ensures Expected(mlb, prefix + [row], RowId(row)) == Some(MilbRecord(row))
    ensures MilbStep(t, row).byId[RowId(row)] == MilbRecord(row)
  {
  }

  lemma {:induction false} ExpectedHasBlock(mlb: seq<Row>, milb: seq<Row>, k: string)
    requires Expected(mlb, milb, k).Some?
    ensures Expected(mlb, milb, k).value.mlbStats.Some? || Expected(mlb, milb, k).value.milbStats.Some?
  {
  }

  // ---------------------------------------------------------------------
  // What `allPlayers` satisfies

  /** One record per distinct id among the accepted rows of either source, in
      the order the ids first appear (MLB rows before minor-league rows). */
  lemma {:induction false} CombineOrder(mlb: seq<Row>, milb: seq<Row>)
    ensures IdsOf(CombinePlayerData(mlb, milb)) == Dedup(AcceptedIds(mlb) + AcceptedIds(milb))
    ensures forall k :: k in IdsOf(CombinePlayerData(mlb, milb)) <==> k in AcceptedIds(mlb) || k in AcceptedIds(milb)
  {
    MilbPassAgrees(mlb, milb);
    var t := MilbPass(MlbPass(Empty, mlb), milb);
    assert IdsOf(Values(t)) == t.order;
  }

  /** Every record is the reference record of its id. */
  lemma {:induction false} CombineRecords(mlb: seq<Row>, milb: seq<Row>)
    ensures var ps := CombinePlayerData(mlb, milb);
            forall i :: 0 <= i < |ps| ==> Expected(mlb, milb, ps[i].id) == Some(ps[i])
  {
    MilbPassAgrees(mlb, milb);
  }

  /** Every record's id is derived from its displayed name, so the records
      `combinePlayerData` returns have pairwise distinct names. */
  lemma {:induction false} CombineNames(mlb: seq<Row>, milb: seq<Row>)
    ensures var ps := CombinePlayerData(mlb, milb);
            && (forall i :: 0 <= i < |ps| ==> ps[i].id == CreatePlayerId(ps[i].name))
            && (forall i, j :: 0 <= i < j < |ps| ==> ps[i].name != ps[j].name)
  {
    var ps := CombinePlayerData(mlb, milb);
    CombineRecords(mlb, milb);
    forall i | 0 <= i < |ps| ensures ps[i].id == CreatePlayerId(ps[i].name) {
      ExpectedNamed(mlb, milb, ps[i].id);
    }
    forall i, j | 0 <= i < j < |ps| ensures ps[i].name != ps[j].name {
      assert IdsOf(ps)[i] != IdsOf(ps)[j];
    }
  }

  /** The reference record under `k` carries `k` as its id, derived from its name. */
  lemma ExpectedNamed(mlb: seq<Row>, milb: seq<Row>, k: string)
    ensures var p := Expected(mlb, milb, k);
            p.Some? ==> p.value.id == k && k == CreatePlayerId(p.value.name)
  {
  }

  /** `mlbStats` is present exactly when an accepted MLB row has the record's id,
      `milbStats` exactly when an accepted minor-league row has it, and a record
      with an MLB block keeps level `'MLB'` even when minor-league rows joined it. */
  lemma {:induction false} CombineBlocks(mlb: seq<Row>, milb: seq<Row>)
    ensures var ps := CombinePlayerData(mlb, milb);
            forall i :: 0 <= i < |ps| ==>
              && (ps[i].mlbStats.Some? <==> ps[i].id in AcceptedIds(mlb))
              && (ps[i].milbStats.Some? <==> ps[i].id in AcceptedIds(milb))
              && (ps[i].mlbStats.Some? ==> ps[i].level == MlbLevel)
  {
    var ps := CombinePlayerData(mlb, milb);
    CombineRecords(mlb, milb);
    forall i | 0 <= i < |ps|
      ensures && (ps[i].mlbStats.Some? <==> ps[i].id in AcceptedIds(mlb))
              && (ps[i].milbStats.Some? <==> ps[i].id in AcceptedIds(milb))
              && (ps[i].mlbStats.Some? ==> ps[i].level == MlbLevel)
    {
      RecordBlocks(mlb, milb, ps[i].id);
    }
  }

  lemma {:induction false} RecordBlocks(mlb: seq<Row>, milb: seq<Row>, k: string)
    requires Expected(mlb, milb, k).Some?
    ensures var p := Expected(mlb, milb, k).value;
            && (p.mlbStats.Some? <==> k in AcceptedIds(mlb))
            && (p.milbStats.Some? <==> k in AcceptedIds(milb))
            && (p.mlbStats.Some? ==> p.level == MlbLevel)
            && p.id == k
  {
  }

  /** A record only minor-league rows have the id of takes its name, level,
      team, age and position from the FIRST such row, and its block from the LAST. */
  lemma MilbOnlyRecord(mlb: seq<Row>, milb: seq<Row>, k: string)
    requires k !in AcceptedIds(mlb) && k in AcceptedIds(milb)
    ensures var p := Expected(mlb, milb, k).value;
            var first := FirstWith(milb, k).value;
            && p.name == RowName(first)
            && p.level == TextOr(first, "Level", DefaultLevel)
            && p.team == TextOr(first, "Team", DefaultTeam)
            && p.age == IntOr(first, "Age", DefaultMilbAge)
            && p.position == Fixed(MilbPosition)
            && p.mlbStats == None
            && p.milbStats == Some(MilbBlock(LastWith(milb, k).value))
  {
  }

  /** A minor-league row whose id is already taken changes only that record's
      `milbStats`; the key order and every other record stay as they were. */
  lemma MilbStepKeeps(t: Table, row: Row)
    requires Accepted(row) && RowId(row) in t.byId
    ensures var t' := MilbStep(t, row);
            var before := t.byId[RowId(row)];
            var after := t'.byId[RowId(row)];
            && t'.order == t.order
            && t'.byId.Keys == t.byId.Keys
            && (forall j :: j in t.byId && j != RowId(row) ==> t'.byId[j] == t.byId[j])
            && after.id == before.id && after.name == before.name && after.level == before.level
            && after.team == before.team && after.age == before.age && after.position == before.position
            && after.mlbStats == before.mlbStats
            && after.milbStats == Some(MilbBlock(row))
  {
  }
}

=== FILE: list_view.dfy ===
/** The list page's view model (script.js): the search/level filter, the
    fixed display order (MLB first, then level, then name) and the summary counts.

    `localeCompare` is not modelled: the order on strings is a parameter
    `collate` returning a negative, zero or positive number like `localeCompare`.
    The ordering guarantees are stated for any `collate` that is a strict total
    order (`StrictCollation`). `Array.prototype.sort` is stable, so sorting is
    modelled as a stable insertion sort. */
module ListView {
  import opened Seqs
  import opened Text
  import opened Rows
  import opened Players
  import opened Combine

  // ---------------------------------------------------------------------
  // Filter

  /** The `filter` callback of `filterPlayers`; `term` is the search box text
      already lower-cased, `level` the level select's value (`""` for all). */
  predicate Matches(p: Player, term: string, level: string) {
    IsInfix(term, Lower(p.name)) && (level == "" || p.level == level)
  }

  function Keep(term: string, level: string): Player -> bool {
    p => Matches(p, term, level)
  }

  /** `filteredPlayers` after `filterPlayers` with the given search text and level. */
  function FilterPlayers(all: seq<Player>, search: string, level: string): (r: seq<Player>)
    ensures |r| <= |all|
  {
    Filter(Keep(Lower(search), level), all)
  }

  /** The filter keeps records in order, and keeps a record exactly when its
      lower-cased name contains the lower-cased search text and the level filter
      is empty or equal to its level. */
  lemma {:induction false} FilterPlayersSpec(all: seq<Player>, search: string, level: string)
    ensures IsSubseq(FilterPlayers(all, search, level), all)
    ensures forall p :: p in FilterPlayers(all, search, level) <==>
              p in all && IsInfix(Lower(search), Lower(p.name)) && (level == "" || p.level == level)
  {
    FilterIsSubseq(Keep(Lower(search), level), all);
    FilterMembers(Keep(Lower(search), level), all);
  }

  /** An empty search with no level filter shows every record. */
  lemma {:induction false} FilterPlayersEmpty(all: seq<Player>)
    ensures FilterPlayers(all, "", "") == all
  {
    forall i | 0 <= i < |all| ensures Keep(Lower(""), "")(all[i]) {
      EmptyIsInfix(Lower(all[i].name));
    }
    FilterKeepsAll(Keep(Lower(""), ""), all);
  }

  // ---------------------------------------------------------------------
  // Display order

  /** The comparator passed to `sort` in `renderPlayers`. */
  function DisplayCompare(collate: (string, string) -> int, a: Player, b: Player): (c: int) {
    if a.level == MlbLevel && b.level != MlbLevel then -1
    else if b.level == MlbLevel && a.level != MlbLevel then 1
    else if a.level != b.level then collate(a.level, b.level)
    else collate(a.name, b.name)
  }

  /** `collate` orders strings strictly and totally: zero exactly on equal
      strings, antisymmetric in sign, transitive. */
  ghost predicate StrictCollation(collate: (string, string) -> int) {
    && (forall x, y :: collate(x, y) == 0 <==> x == y)
    && (forall x, y :: collate(x, y) < 0 <==> collate(y, x) > 0)
    && (forall x, y, z :: collate(x, y) < 0 && collate(y, z) < 0 ==> collate(x, z) < 0)
  }

  ghost predicate Sorted(collate: (string, string) -> int, s: seq<Player>) {
    forall i, j :: 0 <= i < j < |s| ==> DisplayCompare(collate, s[i], s[j]) <= 0
  }

  /** Inserts `x` after every element that does not compare greater than it,
      which keeps equal elements in arrival order. */
  function Insert(collate: (string, string) -> int, x: Player, s: seq<Player>): (r: seq<Player>)
    ensures multiset(r) == multiset(s) + multiset{x}
    ensures forall y :: y in r <==> y == x || y in s
  {
    if |s| == 0 then [x]
    else if DisplayCompare(collate, s[0], x) > 0 then [x] + s
    else
      assert s == [s[0]] + s[1..];
      [s[0]] + Insert(collate, x, s[1..])
  }

  /** `[...filteredPlayers].sort(comparator)`: a stable sort. */
  function SortPlayers(collate: (string, string) -> int, s: seq<Player>): (r: seq<Player>)
    ensures multiset(r) == multiset(s)
  {
    if |s| == 0 then []
    else
      assert s == s[..|s| - 1] + [s[|s| - 1]];
      Insert(collate, s[|s| - 1], SortPlayers(collate, s[..|s| - 1]))
  }

  lemma CompareTrans(collate: (string, string) -> int, a: Player, b: Player, c: Player)
    requires StrictCollation(collate)
    requires DisplayCompare(collate, a, b) <= 0 && DisplayCompare(collate, b, c) <= 0
    ensures DisplayCompare(collate, a, c) <= 0
  {
  }

  lemma {:induction false} InsertSorted(collate: (string, string) -> int, x: Player, s: seq<Player>)
    requires StrictCollation(collate) && Sorted(collate, s)
    ensures Sorted(collate, Insert(collate, x, s))
  {
    if |s| == 0 {
    } else if DisplayCompare(collate, s[0], x) > 0 {
      InsertFront(collate, x, s);
    } else {
      InsertSorted(collate, x, s[1..]);
      InsertBehind(collate, x, s);
    }
  }

  /** `x` placed in front of a sorted list whose head compares greater than it. */
  lemma {:induction false} InsertFront(collate: (string, string) -> int, x: Player, s: seq<Player>)
    requires StrictCollation(collate) && Sorted(collate, s)
    requires |s| > 0 && DisplayCompare(collate, s[0], x) > 0
    ensures Sorted(collate, [x] + s)
  {
  }

  /** `x` inserted behind the head of a sorted list whose head does not compare greater. */
  lemma {:induction false} InsertBehind(collate: (string, string) -> int, x: Player, s: seq<Player>)
    requires Sorted(collate, s) && |s| > 0 && DisplayCompare(collate, s[0], x) <= 0
    requires Sorted(collate, Insert(collate, x, s[1..]))
    ensures Sorted(collate, Insert(collate, x, s))
  {
    var tail := Insert(collate, x, s[1..]);
    var r := Insert(collate, x, s);
    assert r == [s[0]] + tail;
    HeadPrecedes(collate, s, x, tail);
    ConsSorted(collate, s[0], tail);
  }

  /** A head that compares at most zero with every element of a sorted list keeps it sorted. */
  lemma {:induction false} ConsSorted(collate: (string, string) -> int, h: Player, tail: seq<Player>)
    requires Sorted(collate, tail)
    requires forall j :: 0 <= j < |tail| ==> DisplayCompare(collate, h, tail[j]) <= 0
    ensures Sorted(collate, [h] + tail)
  {
  }

  lemma {:induction false} HeadPrecedes(collate: (string, string) -> int, s: seq<Player>, x: Player, tail: seq<Player>)
    requires Sorted(collate, s) && |s| > 0 && DisplayCompare(collate, s[0], x) <= 0
    requires forall y :: y in tail ==> y == x || y in s[1..]
    ensures forall j :: 0 <= j < |tail| ==> DisplayCompare(collate, s[0], tail[j]) <= 0
  {
    forall j | 0 <= j < |tail| ensures DisplayCompare(collate, s[0], tail[j]) <= 0 {
      if tail[j] != x {
        assert tail[j] in s[1..];
        var k :| 0 <= k < |s| - 1 && s[k + 1] == tail[j];
        assert 0 < k + 1;
      }
    }
  }

  lemma {:induction false} SortSorted(collate: (string, string) -> int, s: seq<Player>)
    requires StrictCollation(collate)
    ensures Sorted(collate, SortPlayers(collate, s))
  {
    if |s| > 0 {
      SortSorted(collate, s[..|s| - 1]);
      InsertSorted(collate, s[|s| - 1], SortPlayers(collate, s[..|s| - 1]));
    }
  }

  /** What a comparison of at most zero says about two records. */
  lemma OrderedPair(collate: (string, string) -> int, a: Player, b: Player)
    requires StrictCollation(collate) && DisplayCompare(collate, a, b) <= 0
    ensures b.level == MlbLevel ==> a.level == MlbLevel
    ensures a.level != MlbLevel && b.level != MlbLevel && a.level != b.level ==> collate(a.level, b.level) < 0
    ensures a.level == b.level ==> collate(a.name, b.name) <= 0
  {
  }

  /** No two records of `combinePlayerData` compare equal: their names differ,
      and a strict collation orders different names strictly. */
  lemma {:induction false} CombinedNeverTie(collate: (string, string) -> int, mlb: seq<Row>, milb: seq<Row>, i: nat, j: nat)
    requires StrictCollation(collate)
    requires i < |CombinePlayerData(mlb, milb)| && j < |CombinePlayerData(mlb, milb)| && i != j
    ensures DisplayCompare(collate, CombinePlayerData(mlb, milb)[i], CombinePlayerData(mlb, milb)[j]) != 0
  {
    CombineNames(mlb, milb);
    var ps := CombinePlayerData(mlb, milb);
    assert ps[i].name != ps[j].name;
  }

  /** The sorted list is a permutation of the filtered list in which every MLB
      record precedes every other record, records of different levels are in
      level order, and records of the same level are in name order. */
  lemma {:induction false} DisplayOrder(collate: (string, string) -> int, s: seq<Player>)
    requires StrictCollation(collate)
    ensures var r := SortPlayers(collate, s);
            && multiset(r) == multiset(s)
            && forall i, j :: 0 <= i < j < |r| ==>
                 && (r[j].level == MlbLevel ==> r[i].level == MlbLevel)
                 && (r[i].level != MlbLevel && r[j].level != MlbLevel && r[i].level != r[j].level ==>
                       collate(r[i].level, r[j].level) < 0)
                 && (r[i].level == r[j].level ==> collate(r[i].name, r[j].name) <= 0)
  {
    var r := SortPlayers(collate, s);
    SortSorted(collate, s);
    forall i, j | 0 <= i < j < |r|
      ensures && (r[j].level == MlbLevel ==> r[i].level == MlbLevel)
              && (r[i].level != MlbLevel && r[j].level != MlbLevel && r[i].level != r[j].level ==>
                    collate(r[i].level, r[j].level) < 0)
              && (r[i].level == r[j].level ==> collate(r[i].name, r[j].name) <= 0)
    {
      OrderedPair(collate, r[i], r[j]);
    }
  }

  /** What `renderPlayers` puts in the list container. */
  datatype Listing = NoPlayersFound | Cards(players: seq<Player>)

  function RenderPlayers(collate: (string, string) -> int, filtered: seq<Player>): (r: Listing)
    ensures r.NoPlayersFound? <==> |filtered| == 0
    ensures r.Cards? ==> multiset(r.players) == multiset(filtered)
  {
    if |filtered| == 0 then NoPlayersFound else Cards(SortPlayers(collate, filtered))
  }

  // ---------------------------------------------------------------------
  // Summary

  predicate IsMlb(p: Player) { p.level == MlbLevel }
  predicate NotMlb(p: Player) { p.level != MlbLevel }

  /** The three numbers `updateSummary` writes: shown, MLB and minor-league records. */
  datatype Summary = Summary(total: nat, mlb: nat, milb: nat)

  function UpdateSummary(filtered: seq<Player>): (s: Summary)
    ensures s.total == |filtered|
    ensures s.mlb == Count(IsMlb, filtered) && s.milb == Count(NotMlb, filtered)
    ensures s.mlb + s.milb == s.total
    ensures s.mlb == 0 <==> forall i :: 0 <= i < |filtered| ==> filtered[i].level != MlbLevel
    ensures s.milb == 0 <==> forall i :: 0 <= i < |filtered| ==> filtered[i].level == MlbLevel
  {
    CountIsFilterLength(IsMlb, filtered);
    CountIsFilterLength(NotMlb, filtered);
    CountPartition(IsMlb, NotMlb, filtered);
    Summary(|filtered|, |Filter(IsMlb, filtered)|, |Filter(NotMlb, filtered)|)
  }
}

=== FILE: names.dfy ===
/** Name normalisation shared by the list page (`cleanName`, `createPlayerId`
    in script.js) and the detail page (`cleanName`, `createId` in player.js).
    The cleaned name is what both pages display; the derived id is the join
    key between the two CSV sources and the `?id=` of a detail-page link. */
module Names {
  import opened Seqs
  import opened Text

  predicate IsQuote(c: char) { c == '\'' || c == '"' }
  predicate NotQuote(c: char) { !IsQuote(c) }

  /** The characters an id is built from: the regex class `[a-z0-9]`. */
  predicate IsIdChar(c: char) { 'a' <= c <= 'z' || '0' <= c <= '9' }

  /** The characters the id regex keeps: the complement of `[^a-z0-9\s]`. */
  predicate IsKept(c: char) { IsIdChar(c) || IsSpace(c) }

  /** The characters an id may contain. */
  predicate IsSlugChar(c: char) { IsIdChar(c) || c == '-' }

  predicate NotSpace(c: char) { !IsSpace(c) }
  predicate NotHyphen(c: char) { c != '-' }

  /** No two hyphens are adjacent. */
  predicate NoDoubleHyphen(s: string) {
    forall i :: 0 <= i < |s| - 1 ==> !(s[i] == '-' && s[i + 1] == '-')
  }

  /** `name.replace(/['"]/g, '')`: every single and double quote is deleted,
      wherever it stands, and the other characters keep their order. */
  function StripQuotes(s: string): (r: string)
    ensures forall c :: c in r <==> c in s && !IsQuote(c)
    ensures IsSubseq(r, s)
    ensures |r| + Count(IsQuote, s) == |s|
  {
    FilterMembers(NotQuote, s);
    FilterIsSubseq(NotQuote, s);
    CountIsFilterLength(NotQuote, s);
    CountPartition(IsQuote, NotQuote, s);
    Filter(NotQuote, s)
  }

  /** `cleanName` of script.js: quotes removed everywhere, then trimmed. The
      result is what the pages display as the player's name. */
  function CleanName(name: string): (r: string)
    ensures forall c :: c in r ==> c in name && !IsQuote(c)
    ensures r == [] || (!IsSpace(r[0]) && !IsSpace(r[|r| - 1]))
  {
    Trim(StripQuotes(name))
  }

  /** `replace(/[^a-z0-9\s]/g, '')`: deletes every character that is not a
      lower-case ASCII letter, an ASCII digit or whitespace. */
  function KeepIdChars(s: string): (r: string)
    ensures forall i :: 0 <= i < |r| ==> IsKept(r[i])
    ensures forall c :: c in r <==> c in s && IsKept(c)
    ensures IsSubseq(r, s)
    ensures |r| == Count(IsKept, s)
  {
    FilterMembers(IsKept, s);
    FilterIsSubseq(IsKept, s);
    CountIsFilterLength(IsKept, s);
    Filter(IsKept, s)
  }

  /** `replace(/\s+/g, '-')`: every maximal run of whitespace becomes one hyphen. */
  function Hyphenate(s: string): (r: string)
    decreases |s|
  {
    if |s| == 0 then []
    else if IsSpace(s[0]) then "-" + Hyphenate(TrimStart(s[1..]))
    else [s[0]] + Hyphenate(s[1..])
  }

  /** The non-whitespace characters of `TrimStart(s)` all occur in `s`. */
  lemma TrimStartMembers(s: string)
    ensures forall c :: c in TrimStart(s) ==> c in s
  {
  }

  /** Hyphenation adds nothing but hyphens and leaves no whitespace. */
  lemma {:induction false} HyphenateAlphabet(s: string)
    ensures forall c :: c in Hyphenate(s) ==> c == '-' || (c in s && !IsSpace(c))
    decreases |s|
  {
    if |s| > 0 {
      if IsSpace(s[0]) {
        var t := TrimStart(s[1..]);
        TrimStartMembers(s[1..]);
        HyphenateAlphabet(t);
        assert Hyphenate(s) == "-" + Hyphenate(t);
      } else {
        HyphenateAlphabet(s[1..]);
        assert Hyphenate(s) == [s[0]] + Hyphenate(s[1..]);
      }
    }
  }

  /** The output starts with a hyphen exactly when the input starts with
      whitespace or a hyphen. */
  lemma HyphenateHead(s: string)
    requires |s| > 0
    ensures |Hyphenate(s)| > 0 && (Hyphenate(s)[0] == '-' <==> IsSpace(s[0]) || s[0] == '-')
  {
  }

  /** An input without hyphens gives an output without `--`. */
  lemma {:induction false} HyphenateNoDoubleHyphen(s: string)
    requires '-' !in s
    ensures NoDoubleHyphen(Hyphenate(s))
    decreases |s|
  {
    if |s| > 0 {
      if IsSpace(s[0]) {
        var t := TrimStart(s[1..]);
        TrimStartMembers(s[1..]);
        HyphenateNoDoubleHyphen(t);
        TrimStartShape(s[1..]);
        if |t| > 0 {
          HyphenateHead(t);
        }
        assert Hyphenate(s) == "-" + Hyphenate(t);
      } else {
        HyphenateNoDoubleHyphen(s[1..]);
        if |s| > 1 {
          HyphenateHead(s[1..]);
        }
        assert Hyphenate(s) == [s[0]] + Hyphenate(s[1..]);
      }
    }
  }

  /** `createPlayerId` of script.js (and `createId` of player.js): lower-case,
      delete the characters outside `[a-z0-9\s]`, hyphenate whitespace runs.
      Its output only uses `a`-`z`, `0`-`9` and `-`, and never holds `--`,
      which also makes it safe to place unescaped in a link's query string. */
  function CreatePlayerId(name: string): (r: string)
    ensures forall i :: 0 <= i < |r| ==> IsSlugChar(r[i])
    ensures NoDoubleHyphen(r)
  {
    var k := KeepIdChars(Lower(name));
    var r := Hyphenate(k);
    HyphenateAlphabet(k);
    HyphenateNoDoubleHyphen(k);
    assert forall i :: 0 <= i < |r| ==> IsSlugChar(r[i]) by {
      forall i | 0 <= i < |r| ensures IsSlugChar(r[i]) {
        assert r[i] in r;
      }
    }
    r
  }

  /** The derived id of a raw CSV name: what both pages compute. */
  function IdOf(name: string): (id: string) {
    CreatePlayerId(CleanName(name))
  }

  // ---------------------------------------------------------------------
  // Filtering facts used below

  lemma {:induction false} FilterAgree(p: char -> bool, q: char -> bool, s: string)
    requires forall i :: 0 <= i < |s| ==> p(s[i]) == q(s[i])
    ensures Filter(p, s) == Filter(q, s)
  {
    if |s| > 0 {
      FilterAgree(p, q, s[1..]);
    }
  }

  lemma {:induction false} FilterOfFilter(p: char -> bool, q: char -> bool, s: string)
    requires forall i :: 0 <= i < |s| ==> p(s[i]) ==> q(s[i])
    ensures Filter(p, Filter(q, s)) == Filter(p, s)
  {
    if |s| > 0 {
      FilterOfFilter(p, q, s[1..]);
      if q(s[0]) {
        var f := Filter(q, s);
        assert f == [s[0]] + Filter(q, s[1..]);
        assert f[1..] == Filter(q, s[1..]);
        assert Filter(p, f) == (if p(f[0]) then [f[0]] else []) + Filter(p, f[1..]);
      } else {
        assert Filter(q, s) == Filter(q, s[1..]);
      }
    }
  }

  lemma FilterNone(p: char -> bool, s: string)
    requires forall i :: 0 <= i < |s| ==> !p(s[i])
    ensures Filter(p, s) == []
  {
  }

  // ---------------------------------------------------------------------
  // Properties of the normalisation

  /** Hyphenation keeps every non-whitespace character, in order: deleting the
      hyphens from its output gives back the input without its whitespace. */
  lemma {:induction false} HyphenateContent(s: string)
    requires '-' !in s
    ensures Filter(NotHyphen, Hyphenate(s)) == Filter(NotSpace, s)
    decreases |s|
  {
    if |s| > 0 {
      if IsSpace(s[0]) {
        var t := TrimStart(s[1..]);
        TrimStartShape(s[1..]);
        var pre := s[1..][..|s| - 1 - |t|];
        assert s[1..] == pre + t;
        TrimStartMembers(s[1..]);
        HyphenateContent(t);
        FilterConcat(NotSpace, pre, t);
        FilterNone(NotSpace, pre);
        assert Filter(NotSpace, s) == Filter(NotSpace, s[1..]);
        assert Hyphenate(s) == "-" + Hyphenate(t);
        assert Filter(NotHyphen, "-" + Hyphenate(t)) == Filter(NotHyphen, Hyphenate(t)) by {
          assert ("-" + Hyphenate(t))[1..] == Hyphenate(t);
        }
      } else {
        assert '-' !in s[1..] by {
          forall c | c in s[1..] ensures c != '-' {
            var k :| 0 <= k < |s| - 1 && s[1..][k] == c;
            assert s[k + 1] == c;
          }
        }
        HyphenateContent(s[1..]);
        var h := [s[0]] + Hyphenate(s[1..]);
        assert Hyphenate(s) == h;
        assert h[1..] == Hyphenate(s[1..]);
      }
    }
  }

  /** A string without whitespace is left alone by hyphenation. */
  lemma {:induction false} HyphenateNoSpace(s: string)
    requires forall i :: 0 <= i < |s| ==> !IsSpace(s[i])
    ensures Hyphenate(s) == s
  {
    if |s| > 0 {
      HyphenateNoSpace(s[1..]);
    }
  }

  /** The id keeps exactly the letters and digits of the lower-cased name, in
      order: every other character is either dropped or part of a whitespace
      run that became a hyphen. */
  lemma IdContent(name: string)
    ensures Filter(IsIdChar, CreatePlayerId(name)) == Filter(IsIdChar, Lower(name))
  {
    var l := Lower(name);
    var k := KeepIdChars(l);
    var r := Hyphenate(k);
    assert r == CreatePlayerId(name);
    assert '-' !in k;
    HyphenateContent(k);
    FilterAgree(IsIdChar, NotHyphen, r);
    FilterAgree(NotSpace, IsIdChar, k);
    FilterOfFilter(IsIdChar, IsKept, l);
  }

  /** Deriving an id from an id is NOT stable: the second pass deletes the
      hyphens, since `-` is outside `[a-z0-9\s]`. */
  lemma IdSecondPassDropsHyphens(name: string)
    ensures CreatePlayerId(CreatePlayerId(name)) == Filter(IsIdChar, CreatePlayerId(name))
  {
    var r := CreatePlayerId(name);
    assert Lower(r) == r;
    FilterAgree(IsKept, IsIdChar, r);
    FilterMembers(IsIdChar, r);
    HyphenateNoSpace(Filter(IsIdChar, r));
  }

  /** A word without whitespace passes through hyphenation unchanged. */
  lemma {:induction false} HyphenateWord(w: string, t: string)
    requires forall i :: 0 <= i < |w| ==> !IsSpace(w[i])
    ensures Hyphenate(w + t) == w + Hyphenate(t)
  {
    if |w| > 0 {
      assert (w + t)[1..] == w[1..] + t;
      HyphenateWord(w[1..], t);
      assert w == [w[0]] + w[1..];
    } else {
      assert w + t == t;
    }
  }

  /** One whitespace character before a word becomes one hyphen. */
  lemma HyphenateGap(c: char, t: string)
    requires IsSpace(c) && (t == [] || !IsSpace(t[0]))
    ensures Hyphenate([c] + t) == "-" + Hyphenate(t)
  {
  }

  /** The cleaned name is empty exactly when the raw name holds nothing but
      quotes and whitespace. */
  lemma CleanNameEmptyIff(name: string)
    ensures CleanName(name) == [] <==> forall i :: 0 <= i < |name| ==> IsQuote(name[i]) || IsSpace(name[i])
  {
    var q := StripQuotes(name);
    TrimEmptyIffAllSpace(q);
    if forall i :: 0 <= i < |name| ==> IsQuote(name[i]) || IsSpace(name[i]) {
      forall i | 0 <= i < |q| ensures IsSpace(q[i]) {
        assert q[i] in q;
      }
    } else {
      var j :| 0 <= j < |name| && !IsQuote(name[j]) && !IsSpace(name[j]);
      assert name[j] in q;
    }
  }

  /** A name made only of quotes passes the source's non-blank test but
      cleans to the empty name and the empty id. */
  lemma QuoteOnlyName(name: string)
    requires |name| > 0 && forall i :: 0 <= i < |name| ==> IsQuote(name[i])
    ensures Trim(name) != []
    ensures CleanName(name) == [] && IdOf(name) == []
  {
    TrimEmptyIffAllSpace(name);
    assert !IsSpace(name[0]);
    CleanNameEmptyIff(name);
  }
}

=== FILE: names_examples.dfy ===
/** Concrete normalisation examples, each computed in small steps. */
module NameExamples {
  import opened Seqs
  import opened Text
  import opened Names

  lemma LowerAB() ensures Lower("a b") == "a b" {}
  lemma KeepAB() ensures KeepIdChars("a b") == "a b" { FilterKeepsAll(IsKept, "a b"); }
  lemma GapB() ensures Hyphenate(" b") == "-b" { HyphenateGap(' ', "b"); HyphenateWord("b", []); }
  lemma WordA() ensures Hyphenate("a" + " b") == "a" + Hyphenate(" b") { HyphenateWord("a", " b"); }
  lemma HyphenAB() ensures Hyphenate("a b") == "a-b" { GapB(); WordA(); assert "a" + " b" == "a b"; }

  lemma LowerAHB() ensures Lower("a-b") == "a-b" {}
  lemma DropHyphen() ensures Filter(IsKept, "-") == [] {}
  lemma KeepSplit() ensures Filter(IsKept, "a-b") == Filter(IsKept, "a") + Filter(IsKept, "-") + Filter(IsKept, "b") {
    assert "a-b" == "a" + "-" + "b";
    FilterConcat(IsKept, "a" + "-", "b");
    FilterConcat(IsKept, "a", "-");
  }
  lemma KeepAHB() ensures KeepIdChars("a-b") == "ab" {
    KeepSplit(); DropHyphen(); FilterKeepsAll(IsKept, "a"); FilterKeepsAll(IsKept, "b");
  }
  lemma HyphenNone() ensures Hyphenate("ab") == "ab" { HyphenateWord("ab", []); assert "ab" + [] == "ab"; }

  /** A second pass over `a-b` deletes its hyphen: ids are not idempotent. */
  lemma IdNotIdempotent()
    ensures CreatePlayerId("a b") == "a-b"
    ensures CreatePlayerId("a-b") == "ab"
  {
    LowerAB(); KeepAB(); HyphenAB();
    LowerAHB(); KeepAHB(); HyphenNone();
  }

  /** Filtering a three-piece string filters each piece. */
  lemma FilterPieces(p: char -> bool, x: string, a: string, b: string, c: string, ra: string, rb: string, rc: string)
    requires x == a + b + c
    requires Filter(p, a) == ra && Filter(p, b) == rb && Filter(p, c) == rc
    ensures Filter(p, x) == ra + rb + rc
  {
    FilterConcat(p, a + b, c);
    FilterConcat(p, a, b);
  }

  lemma NoQuoteO() ensures Filter(NotQuote, "O") == "O" { FilterKeepsAll(NotQuote, "O"); }
  lemma NoQuoteNeill() ensures Filter(NotQuote, "Neill Jr.") == "Neill Jr." { FilterKeepsAll(NotQuote, "Neill Jr."); }
  lemma QuoteGone() ensures Filter(NotQuote, "'") == [] {}
  lemma FilterONeillPieces() ensures Filter(NotQuote, "O'Neill Jr.") == "O" + [] + "Neill Jr." {
    NoQuoteO(); NoQuoteNeill(); QuoteGone();
    FilterPieces(NotQuote, "O'Neill Jr.", "O", "'", "Neill Jr.", "O", [], "Neill Jr.");
  }
  lemma StripONeill() ensures StripQuotes("O'Neill Jr.") == "ONeill Jr." {
    FilterONeillPieces();
    assert "O" + [] + "Neill Jr." == "ONeill Jr.";
  }
  lemma TrimONeill() ensures Trim("ONeill Jr.") == "ONeill Jr." { TrimOfTrimmed("ONeill Jr."); }
  lemma CleanONeill() ensures CleanName("O'Neill Jr.") == "ONeill Jr." {
    StripONeill();
    TrimONeill();
  }
  lemma LowerONeill() ensures Lower("ONeill Jr.") == "oneill jr." {}
  lemma KeptOneillJr() ensures Filter(IsKept, "oneill jr") == "oneill jr" { FilterKeepsAll(IsKept, "oneill jr"); }
  lemma PeriodGone() ensures Filter(IsKept, ".") == [] {}
  lemma NothingKept() ensures Filter(IsKept, []) == [] {}
  lemma FilterKeptPieces() ensures Filter(IsKept, "oneill jr.") == "oneill jr" + [] + [] {
    KeptOneillJr(); PeriodGone(); NothingKept();
    FilterPieces(IsKept, "oneill jr.", "oneill jr", ".", [], "oneill jr", [], []);
  }
  lemma KeepONeill() ensures KeepIdChars("oneill jr.") == "oneill jr" {
    FilterKeptPieces();
    assert "oneill jr" + [] + [] == "oneill jr";
  }
  lemma GapJr() ensures Hyphenate(" jr") == "-jr" { HyphenateGap(' ', "jr"); HyphenateWord("jr", []); assert "jr" + [] == "jr"; }
  lemma WordONeill() ensures Hyphenate("oneill" + " jr") == "oneill" + Hyphenate(" jr") { HyphenateWord("oneill", " jr"); }
  lemma HyphenONeill() ensures Hyphenate("oneill jr") == "oneill-jr" {
    GapJr(); WordONeill(); assert "oneill" + " jr" == "oneill jr";
  }

  /** Worked example: the quote is deleted, the name keeps its case for display,
      and the id loses case and the period, with the space turned into a hyphen. */
  lemma IdOfONeill()
    ensures CleanName("O'Neill Jr.") == "ONeill Jr."
    ensures IdOf("O'Neill Jr.") == "oneill-jr"
  {
    CleanONeill(); LowerONeill(); KeepONeill(); HyphenONeill();
  }
}

=== FILE: parse_int.dfy ===
/** JavaScript's global `parseInt(string)` with no radix argument, as the pages
    apply it to CSV cells: skip leading whitespace, take an optional sign, take
    an optional `0x`/`0X` prefix (then read hexadecimal), and read the longest
    run of digits that follows. No digits at all gives NaN, here `None`. */
module JsParse {
  import opened Wrappers
  import opened Text

  predicate IsDecDigit(c: char) { '0' <= c <= '9' }

  /** The value of `c` as a digit in bases up to 36; 36 for a non-digit. */
  function DigitValue(c: char): (v: nat)
    ensures v <= 36
    ensures IsDecDigit(c) ==> v == c as int - '0' as int
  {
    if '0' <= c <= '9' then c as int - '0' as int
    else if 'a' <= c <= 'z' then c as int - 'a' as int + 10
    else if 'A' <= c <= 'Z' then c as int - 'A' as int + 10
    else 36
  }

  predicate IsRadixDigit(c: char, radix: nat) { DigitValue(c) < radix }

  /** The longest prefix of `s` made of digits of the given radix. */
  function DigitPrefix(s: string, radix: nat): (z: string)
    ensures |z| <= |s| && z == s[..|z|]
    ensures forall i :: 0 <= i < |z| ==> IsRadixDigit(z[i], radix)
    ensures |z| == |s| || !IsRadixDigit(s[|z|], radix)
  {
    if |s| > 0 && IsRadixDigit(s[0], radix) then [s[0]] + DigitPrefix(s[1..], radix) else []
  }

  /** The number a digit string denotes in the given radix. */
  function ValueOf(digits: string, radix: nat): nat {
    if |digits| == 0 then 0
    else
      var d := DigitValue(digits[|digits| - 1]);
      ValueOf(digits[..|digits| - 1], radix) * radix + (if d < radix then d else 0)
  }

  /** The unsigned part of `parseInt`: an optional `0x`/`0X` prefix selects
      hexadecimal, then the longest digit run is read; no digit gives `None`. */
  function ParseMagnitude(u: string): (r: Option<nat>)
    ensures r.Some? ==> |u| > 0 && IsDecDigit(u[0])
  {
    var hex := |u| >= 2 && u[0] == '0' && (u[1] == 'x' || u[1] == 'X');
    var radix := if hex then 16 else 10;
    var z := DigitPrefix(if hex then u[2..] else u, radix);
    if |z| == 0 then None
    else
      assert hex || DigitValue(u[0]) < 10;
      Some(ValueOf(z, radix))
  }

  /** `parseInt(s)`; `None` stands for NaN. Magnitudes beyond 2^53, which
      JavaScript rounds to the nearest double, are kept exact here. */
  function ParseInt(s: string): (r: Option<int>)
    ensures (forall i :: 0 <= i < |s| ==> !IsDecDigit(s[i])) ==> r.None?
  {
    var t := TrimStart(s);
    TrimStartShape(s);
    var negative := |t| > 0 && t[0] == '-';
    var u := if |t| > 0 && (t[0] == '+' || t[0] == '-') then t[1..] else t;
    match ParseMagnitude(u)
    case None => None
    case Some(m) =>
      assert u == s[|s| - |u|..];
      assert IsDecDigit(s[|s| - |u|]);
      Some(if negative then -(m as int) else m as int)
  }

  // ---------------------------------------------------------------------
  // Decimal rendering, used to state the round trip

  function DigitChar(d: nat): (c: char)
    requires d < 10
    ensures IsDecDigit(c) && DigitValue(c) == d
  {
    ('0' as int + d) as char
  }

  /** The decimal digits of `n`, without leading zeros (JavaScript's `String(n)`). */
  function NatToString(n: nat): (s: string)
    ensures |s| > 0
    ensures forall i :: 0 <= i < |s| ==> IsDecDigit(s[i])
    ensures s[0] == '0' ==> n == 0 && |s| == 1
  {
    if n < 10 then [DigitChar(n)] else NatToString(n / 10) + [DigitChar(n % 10)]
  }

  /** `String(n)` for an integer. */
  function IntToString(n: int): string {
    if n < 0 then "-" + NatToString(-n) else NatToString(n)
  }

  lemma {:induction false} ValueOfNatToString(n: nat)
    ensures ValueOf(NatToString(n), 10) == n
  {
    if n >= 10 {
      ValueOfNatToString(n / 10);
      var s := NatToString(n);
      assert s[..|s| - 1] == NatToString(n / 10);
    }
  }

  /** The digit prefix stops exactly at the first non-digit. */
  lemma {:induction false} DigitPrefixOf(a: string, t: string, radix: nat)
    requires forall i :: 0 <= i < |a| ==> IsRadixDigit(a[i], radix)
    requires t == [] || !IsRadixDigit(t[0], radix)
    ensures DigitPrefix(a + t, radix) == a
  {
    if |a| > 0 {
      assert (a + t)[1..] == a[1..] + t;
      DigitPrefixOf(a[1..], t, radix);
    } else {
      assert a + t == t;
    }
  }

  /** A decimal rendering followed by a non-continuing tail reads back as the number. */
  lemma MagnitudeOfDigits(m: nat, tail: string)
    requires tail == [] || (!IsDecDigit(tail[0]) && tail[0] != 'x' && tail[0] != 'X')
    ensures ParseMagnitude(NatToString(m) + tail) == Some(m)
  {
    var digits := NatToString(m);
    var u := digits + tail;
    assert u[0] == digits[0];
    assert !(|u| >= 2 && u[0] == '0' && (u[1] == 'x' || u[1] == 'X')) by {
      if |u| >= 2 && u[0] == '0' {
        assert |digits| == 1 && u[1] == tail[0];
      }
    }
    DigitPrefixOf(digits, tail, 10);
    ValueOfNatToString(m);
  }

  /** `parseInt` reads back the decimal rendering of any integer, and ignores
      whatever follows the digits as long as it cannot continue the number. */
  lemma ParseIntRoundTrip(n: int, tail: string)
    requires tail == [] || (!IsDecDigit(tail[0]) && tail[0] != 'x' && tail[0] != 'X')
    ensures ParseInt(IntToString(n) + tail) == Some(n)
  {
    var m: nat := if n < 0 then -n else n;
    var u := NatToString(m) + tail;
    MagnitudeOfDigits(m, tail);
    assert u[0] == NatToString(m)[0];
    if n < 0 {
      assert IntToString(n) + tail == "-" + u;
      ParseIntNegative(u);
    } else {
      assert IntToString(n) + tail == u;
      ParseIntUnsigned(u);
    }
  }

  lemma ParseIntUnsigned(u: string)
    requires |u| > 0 && IsDecDigit(u[0]) && ParseMagnitude(u).Some?
    ensures ParseInt(u) == Some(ParseMagnitude(u).value as int)
  {
  }

  lemma ParseIntNegative(u: string)
    requires |u| > 0 && IsDecDigit(u[0]) && ParseMagnitude(u).Some?
    ensures ParseInt("-" + u) == Some(-(ParseMagnitude(u).value as int))
  {
  }

  /** Leading whitespace is skipped. */
  lemma ParseIntSkipsSpace(ws: string, s: string)
    requires AllSpace(ws)
    ensures ParseInt(ws + s) == ParseInt(s)
  {
    SkipSpaces(ws, s);
  }

  lemma {:induction false} SkipSpaces(ws: string, s: string)
    requires AllSpace(ws)
    ensures TrimStart(ws + s) == TrimStart(s)
  {
    if |ws| > 0 {
      assert (ws + s)[1..] == ws[1..] + s;
      SkipSpaces(ws[1..], s);
    } else {
      assert ws + s == s;
    }
  }
}

=== FILE: player_page.dfy ===
/** The detail page (player.js): the lookup of the requested id in both row
    sets, and what `renderPlayer` selects to show from what it found. The
    page re-derives ids with its own copy of the name normalisation; the lemmas
    here show that copy computes the same ids as the list page, so every link
    from the list resolves. */
module PlayerPage {
  import opened Wrappers
  import opened Seqs
  import opened Text
  import opened Names
  import opened Rows
  import opened Players
  import opened Combine

  // ---------------------------------------------------------------------
  // The page's own name normalisation

  /** `cleanName` of player.js: like the list page's, except that a falsy
      name (absent or empty) gives the empty string. */
  function PageCleanName(name: Option<string>): (r: string)
    ensures name.Some? ==> r == CleanName(name.value)
    ensures name.None? ==> r == ""
  {
    if name.Some? && name.value != "" then CleanName(name.value) else ""
  }

  /** `createId` of player.js, written as the three passes of its regex chain.
      It computes exactly the list page's id. */
  method CreateId(name: string) returns (id: string)
    ensures id == CreatePlayerId(name)
  {
    var lower := LowerPass(name);
    var kept := DropPass(lower);
    id := HyphenPass(kept);
  }

  /** `toLowerCase()`, one character at a time. */
  method LowerPass(s: string) returns (r: string)
    ensures r == Lower(s)
  {
    r := "";
    var i := 0;
    while i < |s|
      invariant 0 <= i <= |s|
      invariant |r| == i && forall k :: 0 <= k < i ==> r[k] == LowerChar(s[k])
    {
      r := r + [LowerChar(s[i])];
      i := i + 1;
    }
  }

  /** `replace(/[^a-z0-9\s]/g, '')`, one character at a time. */
  method DropPass(s: string) returns (r: string)
    ensures r == KeepIdChars(s)
  {
    r := "";
    var i := 0;
    while i < |s|
      invariant 0 <= i <= |s|
      invariant r == Filter(IsKept, s[..i])
    {
      assert s[..i + 1] == s[..i] + [s[i]];
      FilterConcat(IsKept, s[..i], [s[i]]);
      if IsKept(s[i]) {
        r := r + [s[i]];
      }
      i := i + 1;
    }
    assert s[..i] == s;
  }

  /** `replace(/\s+/g, '-')`: scans a whitespace run to its end and emits one hyphen for it. */
  method HyphenPass(s: string) returns (r: string)
    ensures r == Hyphenate(s)
  {
    r := "";
    var i := 0;
    while i < |s|
      invariant 0 <= i <= |s|
      invariant r + Hyphenate(s[i..]) == Hyphenate(s)
    {
      assert s[i..][1..] == s[i + 1..];
      if IsSpace(s[i]) {
        var j := i + 1;
        while j < |s| && IsSpace(s[j])
          invariant i + 1 <= j <= |s|
          invariant TrimStart(s[j..]) == TrimStart(s[i + 1..])
        {
          assert s[j..][1..] == s[j + 1..];
          j := j + 1;
        }
        assert TrimStart(s[j..]) == s[j..];
        r := r + "-";
        i := j;
      } else {
        r := r + [s[i]];
        i := i + 1;
      }
    }
    assert s[i..] == [];
  }

  // ---------------------------------------------------------------------
  // findPlayer

  /** The `find` callback: a truthy `Name` whose derived id is the requested one.
      A missing `?id=` parameter is `None` and matches nothing. */
  predicate PageMatch(row: Row, playerId: Option<string>) {
    Truthy(row, "Name") && playerId == Some(CreatePlayerId(CleanName(row["Name"])))
  }

  function Matcher(playerId: Option<string>): Row -> bool {
    row => PageMatch(row, playerId)
  }

  /** `rows.find(...)`: the first matching row. */
  function Find(rows: seq<Row>, playerId: Option<string>): (r: Option<Row>)
    ensures r.None? <==> forall j :: 0 <= j < |rows| ==> !PageMatch(rows[j], playerId)
    ensures r.Some? ==> PageMatch(r.value, playerId)
    ensures r.Some? ==> exists i :: 0 <= i < |rows| && rows[i] == r.value &&
                          forall j :: 0 <= j < i ==> !PageMatch(rows[j], playerId)
  {
    var k := FirstIndex(Matcher(playerId), rows);
    if k < |rows| then Some(rows[k]) else None
  }

  /** `this.player`: the first matching row of each source, the displayed name and the id. */
  datatype Found = Found(mlb: Option<Row>, milb: Option<Row>, name: string, id: string)

  /** `findPlayer`; `None` is the "Player not found" outcome. */
  function FindPlayer(mlbData: seq<Row>, milbData: seq<Row>, playerId: Option<string>): (r: Option<Found>)
    ensures r.None? <==>
              (forall j :: 0 <= j < |mlbData| ==> !PageMatch(mlbData[j], playerId)) &&
              (forall j :: 0 <= j < |milbData| ==> !PageMatch(milbData[j], playerId))
    ensures r.Some? ==> r.value.mlb == Find(mlbData, playerId) && r.value.milb == Find(milbData, playerId)
    ensures r.Some? ==> Some(r.value.id) == playerId
    ensures r.Some? && r.value.mlb.Some? ==> r.value.name == CleanName(r.value.mlb.value["Name"])
    ensures r.Some? && r.value.mlb.None? ==> r.value.name == CleanName(r.value.milb.value["Name"])
  {
    var mlb := Find(mlbData, playerId);
    var milb := Find(milbData, playerId);
    if mlb.None? && milb.None? then None
    else
      var source := if mlb.Some? then mlb.value else milb.value;
      Some(Found(mlb, milb, PageCleanName(Cell(source, "Name")), playerId.value))
  }

  // ---------------------------------------------------------------------
  // Agreement with the list page

  /** For a non-empty id, the page's match is exactly the list page's
      "accepted row with this id". */
  lemma PageMatchAccepted(row: Row, k: string)
    requires k != ""
    ensures PageMatch(row, Some(k)) <==> Accepted(row) && RowId(row) == k
  {
    if "Name" in row {
      AcceptedIff(row);
      if AllSpace(row["Name"]) {
        CleanNameEmptyIff(row["Name"]);
      }
    }
  }

  /** An accepted row always matches its own id, even the empty one. */
  lemma AcceptedMatches(row: Row)
    requires Accepted(row)
    ensures PageMatch(row, Some(RowId(row)))
  {
  }

  lemma {:induction false} FindIsFirstWith(rows: seq<Row>, k: string)
    requires k != ""
    ensures Find(rows, Some(k)) == FirstWith(rows, k)
  {
    if |rows| > 0 {
      var prefix := rows[..|rows| - 1];
      var last := rows[|rows| - 1];
      assert rows == prefix + [last];
      FindIsFirstWith(prefix, k);
      FindSnoc(prefix, last, Some(k));
      PageMatchAccepted(last, k);
      assert FirstWith(rows, k) ==
               if FirstWith(prefix, k).Some? then FirstWith(prefix, k)
               else if HasId(last, k) then Some(last)
               else None;
    }
  }

  /** Appending a row changes the first match only when there was none. */
  lemma {:induction false} FindSnoc(rows: seq<Row>, row: Row, playerId: Option<string>)
    ensures Find(rows + [row], playerId) ==
              if Find(rows, playerId).Some? then Find(rows, playerId)
              else if PageMatch(row, playerId) then Some(row)
              else None
  {
    FirstIndexSnoc(Matcher(playerId), rows, row);
    var k := FirstIndex(Matcher(playerId), rows);
    if k < |rows| {
      assert (rows + [row])[k] == rows[k];
    } else {
      assert (rows + [row])[|rows|] == row;
    }
  }

  /** `find` on a non-empty list tests the head first. */
  lemma {:induction false} FindCons(row: Row, rows: seq<Row>, playerId: Option<string>)
    ensures Find([row] + rows, playerId) ==
              if PageMatch(row, playerId) then Some(row) else Find(rows, playerId)
  {
    FirstIndexCons(Matcher(playerId), row, rows);
    var k := FirstIndex(Matcher(playerId), rows);
    if k < |rows| {
      assert ([row] + rows)[k + 1] == rows[k];
    }
  }

  /** A row that does not match can be taken out without changing what `find`
      returns. */
  lemma FindSkipsNonMatching(a: seq<Row>, x: Row, b: seq<Row>, playerId: Option<string>)
    requires !PageMatch(x, playerId)
    ensures Find(a + [x] + b, playerId) == Find(a + b, playerId)
  {
    FirstIndexSkip(Matcher(playerId), a, x, b);
  }

  /** The row Papa Parse makes of a blank line when empty lines are not skipped:
      only the first column, holding `""`. It never matches, because its `Name`
      is empty or absent. */
  lemma BlankRowNeverMatches(first: string, playerId: Option<string>)
    ensures !PageMatch(map[first := ""], playerId)
  {
  }

  /** Every id the list page produces is found by the detail page: following a
      link never reports "Player not found". */
  lemma {:induction false} LinksResolve(mlb: seq<Row>, milb: seq<Row>, i: nat)
    requires i < |CombinePlayerData(mlb, milb)|
    ensures FindPlayer(mlb, milb, Some(CombinePlayerData(mlb, milb)[i].id)).Some?
  {
    var k := CombinePlayerData(mlb, milb)[i].id;
    CombineOrder(mlb, milb);
    assert k in IdsOf(CombinePlayerData(mlb, milb));
    var rows := if k in AcceptedIds(mlb) then mlb else milb;
    var row := LastWith(rows, k).value;
    AcceptedMatches(row);
    var j :| 0 <= j < |rows| && rows[j] == row;
  }

  /** For a record with a non-empty id the page finds the first accepted row of
      each source with that id, so it sees an MLB row exactly when the record
      has `mlbStats` and a minor-league row exactly when it has `milbStats`. The
      page names the player after the FIRST MLB row where the list uses the LAST;
      for a minor-league-only player both use the first minor-league row. */
  lemma {:induction false} PageAgreesWithList(mlb: seq<Row>, milb: seq<Row>, i: nat)
    requires i < |CombinePlayerData(mlb, milb)|
    requires CombinePlayerData(mlb, milb)[i].id != ""
    ensures var p := CombinePlayerData(mlb, milb)[i];
            var f := FindPlayer(mlb, milb, Some(p.id));
            && f.Some?
            && f.value.mlb == FirstWith(mlb, p.id)
            && f.value.milb == FirstWith(milb, p.id)
            && (f.value.mlb.Some? <==> p.mlbStats.Some?)
            && (f.value.milb.Some? <==> p.milbStats.Some?)
            && (f.value.mlb.Some? ==>
                  f.value.name == RowName(FirstWith(mlb, p.id).value) && p.name == RowName(LastWith(mlb, p.id).value))
            && (f.value.mlb.None? ==> f.value.name == p.name)
  {
    var p := CombinePlayerData(mlb, milb)[i];
    LinksResolve(mlb, milb, i);
    FindIsFirstWith(mlb, p.id);
    FindIsFirstWith(milb, p.id);
    CombineRecords(mlb, milb);
    RecordBlocks(mlb, milb, p.id);
  }

  // ---------------------------------------------------------------------
  // renderPlayer

  /** `s.replace('+', '-plus')`: with a string pattern only the first `+` is replaced. */
  function ReplaceFirstPlus(s: string): (r: string)
    ensures '+' !in s ==> r == s
  {
    if |s| == 0 then []
    else if s[0] == '+' then "-plus" + s[1..]
    else [s[0]] + ReplaceFirstPlus(s[1..])
  }

  /** The class suffix of a level: lower-cased, with its first `+` spelled `-plus`. */
  function LevelSuffix(level: string): (suffix: string) {
    ReplaceFirstPlus(Lower(level))
  }

  /** The class of a minor-league level tag. */
  function LevelClass(level: string): (cls: string) {
    "level-tag level-" + LevelSuffix(level)
  }

  const MlbClass := "level-tag level-mlb"

  datatype Section = MlbStatsSection | MilbStatsSection(levelSuffix: string)

  /** The level tag's text and class, the player-type text and the age text
      (the age is only written for a minor-league-only player). */
  datatype Header = Header(levelText: string, levelClass: string, playerType: string, ageText: Option<string>)

  /** The outcome of `renderPlayer`: nothing rendered (no player), the page, or
      an exception thrown part-way, which the page reports as a loading error. */
  datatype Page =
    | NotFound
    | Shown(name: string, header: Option<Header>, sections: seq<Section>)
    | Failed(name: string)

  /** The page for a found player whose minor-league level reads as `level`. */
  function ShowPage(f: Found, level: string): (page: Page)
    ensures page.Shown? && page.name == f.name
    ensures |page.sections| == (if f.mlb.Some? then 1 else 0) + (if f.milb.Some? then 1 else 0)
    ensures f.mlb.Some? ==> page.sections[0] == MlbStatsSection
    ensures f.milb.Some? ==> page.sections[|page.sections| - 1] == MilbStatsSection(LevelSuffix(level))
    ensures f.mlb.Some? ==> page.header == Some(Header(MlbLevel, MlbClass, "Major League", None))
    ensures f.mlb.None? && f.milb.Some? ==>
              page.header.Some? && page.header.value.levelText == level &&
              page.header.value.levelClass == LevelClass(level) &&
              page.header.value.playerType == "Minor League"
    ensures f.mlb.None? && f.milb.Some? && "Age" in f.milb.value ==>
              page.header.value.ageText == Some("Age " + f.milb.value["Age"])
    ensures f.mlb.None? && f.milb.None? ==> page.header.None?
  {
    var header :=
      if f.mlb.Some? then Some(Header(MlbLevel, MlbClass, "Major League", None))
      else if f.milb.Some? then
        var age := if "Age" in f.milb.value then f.milb.value["Age"] else "undefined";
        Some(Header(level, LevelClass(level), "Minor League", Some("Age " + age)))
      else None;
    var sections :=
      (if f.mlb.Some? then [MlbStatsSection] else []) +
      (if f.milb.Some? then [MilbStatsSection(LevelSuffix(level))] else []);
    Shown(f.name, header, sections)
  }

  /** `renderPlayer` as written: the minor-league `Level` cell is used without a
      default, and `level.toLowerCase()` throws when the cell is absent. */
  function RenderPlayer(found: Option<Found>): (page: Page)
    ensures page.NotFound? <==> found.None?
    ensures page.Failed? <==> found.Some? && found.value.milb.Some? && "Level" !in found.value.milb.value
    ensures page.Shown? || page.Failed? ==> page.name == found.value.name
    ensures page.Shown? ==>
              |page.sections| == (if found.value.mlb.Some? then 1 else 0) + (if found.value.milb.Some? then 1 else 0)
    ensures page.Shown? && found.value.mlb.Some? ==>
              page.header == Some(Header(MlbLevel, MlbClass, "Major League", None)) &&
              page.sections[0] == MlbStatsSection
    ensures page.Shown? && found.value.mlb.None? && found.value.milb.Some? ==>
              var level := found.value.milb.value["Level"];
              page.header.Some? && page.header.value.levelText == level &&
              page.header.value.levelClass == LevelClass(level) &&
              page.header.value.playerType == "Minor League" &&
              page.sections == [MilbStatsSection(LevelSuffix(level))] &&
              ("Age" in found.value.milb.value ==>
                 page.header.value.ageText == Some("Age " + found.value.milb.value["Age"]))
    ensures page.Shown? && found.value.milb.Some? ==>
              page.sections[|page.sections| - 1] == MilbStatsSection(LevelSuffix(found.value.milb.value["Level"]))
  {
    if found.None? then NotFound
    else
      var f := found.value;
      if f.milb.Some? && "Level" !in f.milb.value then Failed(f.name)
      else ShowPage(f, if f.milb.Some? then f.milb.value["Level"] else "")
  }

  /** `renderPlayer` with the list page's `Level || 'A'` default applied to the
      minor-league level. */
  function RenderPlayerDefaulted(found: Option<Found>): (page: Page)
    ensures page.NotFound? <==> found.None?
    ensures found.Some? ==> page.Shown? && page.name == found.value.name
    ensures found.Some? && found.value.mlb.None? && found.value.milb.Some? ==>
              page.header.Some? && page.header.value.levelText == TextOr(found.value.milb.value, "Level", DefaultLevel)
    ensures found.Some? && found.value.mlb.Some? ==> page.header.Some? && page.header.value.levelText == MlbLevel
  {
    if found.None? then NotFound
    else
      var f := found.value;
      ShowPage(f, if f.milb.Some? then TextOr(f.milb.value, "Level", DefaultLevel) else "")
  }

  /** With the default applied, the detail page shows the level the list page
      shows for every listed player (ids other than the empty one). */
  lemma {:induction false} PageLevelMatchesList(mlb: seq<Row>, milb: seq<Row>, i: nat)
    requires i < |CombinePlayerData(mlb, milb)|
    requires CombinePlayerData(mlb, milb)[i].id != ""
    ensures var p := CombinePlayerData(mlb, milb)[i];
            var page := RenderPlayerDefaulted(FindPlayer(mlb, milb, Some(p.id)));
            page.Shown? && page.header.Some? && page.header.value.levelText == p.level
  {
    var p := CombinePlayerData(mlb, milb)[i];
    PageAgreesWithList(mlb, milb, i);
    CombineRecords(mlb, milb);
    CombineBlocks(mlb, milb);
    if p.mlbStats.None? {
      MilbOnlyRecord(mlb, milb, p.id);
    }
  }

  /** As written, a minor-league-only player whose row lacks the `Level` column
      is listed with level `'A'`, but its detail page fails. */
  lemma {:induction false} MissingLevelBreaksPage(row: Row)
    requires Accepted(row) && "Level" !in row
    ensures |CombinePlayerData([], [row])| == 1
    ensures CombinePlayerData([], [row])[0].level == DefaultLevel
    ensures RenderPlayer(FindPlayer([], [row], Some(RowId(row)))).Failed?
  {
    var k := RowId(row);
    CombineOrder([], [row]);
    assert AcceptedIds([row]) == [k] by {
      assert [row][..0] == [];
    }
    assert [] + AcceptedIds([row]) == [k];
    assert Dedup([k]) == [k] by {
      assert [k][..0] == [];
    }
    CombineRecords([], [row]);
    assert FirstWith([row], k) == Some(row) by {
      assert [row][..0] == [];
    }
    var f := FindPlayer([], [row], Some(k));
    AcceptedMatches(row);
    assert Find([row], Some(k)) == Some(row);
  }

  /** Only the first `+` is spelled out; the rest of the string is kept. */
  lemma {:induction false} ReplaceFirstPlusSplit(a: string, b: string)
    requires '+' !in a
    ensures ReplaceFirstPlus(a + "+" + b) == a + "-plus" + b
  {
    if |a| == 0 {
      assert a + "+" + b == "+" + b;
      assert ("+" + b)[1..] == b;
    } else {
      ReplaceFirstPlusSplit(a[1..], b);
      assert (a + "+" + b)[1..] == a[1..] + "+" + b;
      assert a == [a[0]] + a[1..];
    }
  }

  /** The class suffix of `a + "+" + b` (no `+` in `a`) is both parts lower-cased
      around `-plus`: `"A+"` becomes `"a-plus"`. */
  lemma LevelSuffixPlus(a: string, b: string)
    requires '+' !in a
    ensures LevelSuffix(a + "+" + b) == Lower(a) + "-plus" + Lower(b)
  {
    var s := a + "+" + b;
    assert Lower(s) == Lower(a) + "+" + Lower(b);
    assert '+' !in Lower(a) by {
      forall i | 0 <= i < |a| ensures Lower(a)[i] != '+' {
        assert a[i] != '+';
      }
    }
    ReplaceFirstPlusSplit(Lower(a), Lower(b));
  }

  lemma LevelSuffixExamples()
    ensures LevelSuffix("A+") == "a-plus"
    ensures LevelSuffix("A++") == "a-plus+"
    ensures LevelSuffix("AAA") == "aaa"
  {
  }
}

=== FILE: players.dfy ===
/** The player records `combinePlayerData` builds (script.js): one record per
    derived id, carrying an MLB statistics block, a minor-league block, or both. */
module Players {
  import opened Wrappers
  import opened Text
  import opened Names
  import opened JsParse
  import opened Rows

  const MlbLevel := "MLB"
  const DefaultLevel := "A"
  const DefaultTeam := "MIL"
  /** `calculateAge` returns this for every MLB row. */
  const MlbAge := 27
  const DefaultMilbAge := 22
  /** `guessPositionFromMilb` returns this for every minor-league row. */
  const MilbPosition := "OF"

  /** The position shown on a card. For an MLB row `guessPosition` thresholds the
      floating-point `Def` cell; that rule is not modelled and the position is
      represented by the cell it is computed from. */
  datatype Position = Fixed(code: string) | FromDefence(def: Rate)

  datatype MlbStats = MlbStats(
    games: int, plateAppearances: int, homeRuns: int, runs: int,
    runsBattedIn: int, stolenBases: int,
    avg: Rate, obp: Rate, slg: Rate, wrcPlus: int, war: Rate)

  datatype MilbStats = MilbStats(
    level: string, games: int, atBats: int, plateAppearances: int, hits: int,
    homeRuns: int, runs: int, runsBattedIn: int, walks: int, strikeouts: int,
    stolenBases: int, avg: Rate)

  datatype Player = Player(
    id: string, name: string, level: string, team: string, age: int,
    position: Position, mlbStats: Option<MlbStats>, milbStats: Option<MilbStats>)

  /** The columns read with `parseInt(...) || 0` into a minor-league block. */
  const MilbCountColumns: seq<string> := ["G", "AB", "PA", "H", "HR", "R", "RBI", "BB", "SO", "SB"]

  /** The counting field of a minor-league block read from the given column. */
  function MilbCount(b: MilbStats, column: string): int {
    match column
    case "G" => b.games
    case "AB" => b.atBats
    case "PA" => b.plateAppearances
    case "H" => b.hits
    case "HR" => b.homeRuns
    case "R" => b.runs
    case "RBI" => b.runsBattedIn
    case "BB" => b.walks
    case "SO" => b.strikeouts
    case "SB" => b.stolenBases
    case _ => 0
  }

  /** The `mlbStats` object built from an MLB row. */
  function MlbBlock(row: Row): (b: MlbStats)
    ensures b.games == IntOr(row, "G", 0) && b.plateAppearances == IntOr(row, "PA", 0)
    ensures b.homeRuns == IntOr(row, "HR", 0) && b.runs == IntOr(row, "R", 0)
    ensures b.runsBattedIn == IntOr(row, "RBI", 0) && b.stolenBases == IntOr(row, "SB", 0)
    ensures b.wrcPlus == IntOr(row, "wRC+", 0)
    ensures b.avg.cell == Cell(row, "AVG") && b.obp.cell == Cell(row, "OBP")
    ensures b.slg.cell == Cell(row, "SLG") && b.war.cell == Cell(row, "WAR")
  {
    MlbStats(
      IntOr(row, "G", 0), IntOr(row, "PA", 0), IntOr(row, "HR", 0), IntOr(row, "R", 0),
      IntOr(row, "RBI", 0), IntOr(row, "SB", 0),
      RateOf(row, "AVG"), RateOf(row, "OBP"), RateOf(row, "SLG"), IntOr(row, "wRC+", 0),
      RateOf(row, "WAR"))
  }

  /** The `milbStats` object built from a minor-league row. */
  function MilbBlock(row: Row): (b: MilbStats)
    ensures b.level != ""
    ensures Truthy(row, "Level") ==> b.level == row["Level"]
    ensures !Truthy(row, "Level") ==> b.level == DefaultLevel
    ensures b.avg.cell == Cell(row, "AVG")
    ensures forall i :: 0 <= i < |MilbCountColumns| ==>
              MilbCount(b, MilbCountColumns[i]) == IntOr(row, MilbCountColumns[i], 0)
  {
    MilbStats(
      TextOr(row, "Level", DefaultLevel),
      IntOr(row, "G", 0), IntOr(row, "AB", 0), IntOr(row, "PA", 0), IntOr(row, "H", 0),
      IntOr(row, "HR", 0), IntOr(row, "R", 0), IntOr(row, "RBI", 0), IntOr(row, "BB", 0),
      IntOr(row, "SO", 0), IntOr(row, "SB", 0), RateOf(row, "AVG"))
  }

  /** The record an accepted MLB row creates (or replaces). */
  function MlbRecord(row: Row): (p: Player)
    requires Accepted(row)
    ensures p.id == RowId(row) && p.name == RowName(row)
    ensures p.level == MlbLevel && p.age == MlbAge
    ensures p.mlbStats == Some(MlbBlock(row)) && p.milbStats.None?
    ensures Truthy(row, "Team") ==> p.team == row["Team"]
    ensures !Truthy(row, "Team") ==> p.team == DefaultTeam
    ensures p.position == FromDefence(RateOf(row, "Def"))
  {
    Player(RowId(row), RowName(row), MlbLevel, TextOr(row, "Team", DefaultTeam), MlbAge,
           FromDefence(RateOf(row, "Def")), Some(MlbBlock(row)), None)
  }

  /** The record an accepted minor-league row creates when its id is new. */
  function MilbRecord(row: Row): (p: Player)
    requires Accepted(row)
    ensures p.id == RowId(row) && p.name == RowName(row)
    ensures p.mlbStats.None? && p.milbStats == Some(MilbBlock(row))
  {
    Player(RowId(row), RowName(row), TextOr(row, "Level", DefaultLevel),
           TextOr(row, "Team", DefaultTeam), IntOr(row, "Age", DefaultMilbAge),
           Fixed(MilbPosition), None, Some(MilbBlock(row)))
  }

  /** The defaults of a minor-league-only record: level `'A'` and team `'MIL'`
      stand in for a missing or empty cell, age 22 for an unreadable or zero
      age, and every counting statistic without digits is 0. */
  lemma MilbRecordDefaults(row: Row)
    requires Accepted(row)
    ensures var p := MilbRecord(row);
            && (Truthy(row, "Level") ==> p.level == row["Level"])
            && (!Truthy(row, "Level") ==> p.level == DefaultLevel)
            && (!Truthy(row, "Team") ==> p.team == DefaultTeam)
            && (Truthy(row, "Team") ==> p.team == row["Team"])
            && (("Age" !in row || ParseInt(row["Age"]).None? || ParseInt(row["Age"]) == Some(0)) ==>
                  p.age == DefaultMilbAge)
            && ("Age" in row && ParseInt(row["Age"]).Some? && ParseInt(row["Age"]) != Some(0) ==>
                  p.age == ParseInt(row["Age"]).value)
            && p.position == Fixed(MilbPosition)
            && p.level == p.milbStats.value.level
            && forall i :: 0 <= i < |MilbCountColumns| ==>
                 var c := MilbCountColumns[i];
                 (c !in row || ParseInt(row[c]).None?) ==> MilbCount(p.milbStats.value, c) == 0
  {
  }

  /** Every MLB record carries level `'MLB'`, age 27 and no minor-league block;
      a minor-league record never has level `'MLB'` unless its `Level` cell says so. */
  lemma RecordLevels(row: Row)
    requires Accepted(row)
    ensures MlbRecord(row).level == MlbLevel && MlbRecord(row).age == MlbAge
    ensures MilbRecord(row).level == MlbLevel ==> Truthy(row, "Level") && row["Level"] == MlbLevel
  {
  }
}

=== FILE: rows.dfy ===
/** A parsed CSV row as the pages see it: a map from column header to cell
    text, where a column the row lacks reads as `undefined`. The helpers give
    the JavaScript meaning of the idioms the pages apply to cells:
    truthiness, `cell || default` and `parseInt(cell) || default`. */
module Rows {
  import opened Wrappers
  import opened Text
  import opened Names
  import opened JsParse

  type Row = map<string, string>

  /** `row[key]`: the cell, or `undefined` when the column is absent. */
  function Cell(row: Row, key: string): (v: Option<string>)
    ensures v.Some? <==> key in row
    ensures v.Some? ==> v.value == row[key]
  {
    if key in row then Some(row[key]) else None
  }

  /** A cell is truthy when it is present and not the empty string. */
  predicate Truthy(row: Row, key: string) {
    key in row && row[key] != ""
  }

  /** `row[key] || d`: the cell when it is truthy, `d` otherwise. */
  function TextOr(row: Row, key: string, d: string): (r: string)
    ensures Truthy(row, key) ==> r == row[key]
    ensures !Truthy(row, key) ==> r == d
    ensures r == "" ==> d == ""
  {
    if Truthy(row, key) then row[key] else d
  }

  /** `parseInt(row[key]) || d`: NaN (no digits, or an absent column, since
      `parseInt(undefined)` is NaN) and zero both fall back to `d`. */
  function IntOr(row: Row, key: string, d: int): (r: int)
    ensures key !in row ==> r == d
    ensures key in row && ParseInt(row[key]).Some? && ParseInt(row[key]).value != 0 ==>
              r == ParseInt(row[key]).value
    ensures key in row && (ParseInt(row[key]).None? || ParseInt(row[key]).value == 0) ==> r == d
    ensures r != d ==> key in row && ParseInt(row[key]) == Some(r)
  {
    if key !in row then d
    else
      match ParseInt(row[key])
      case None => d
      case Some(n) => if n == 0 then d else n
  }

  /** A rate statistic (`parseFloat(row[key]) || 0`). Floating point is not
      modelled: the value is represented by the cell it is read from. */
  datatype Rate = Rate(cell: Option<string>)

  function RateOf(row: Row, key: string): (r: Rate)
    ensures r.cell == Cell(row, key)
  {
    Rate(Cell(row, key))
  }

  /** The filter both passes of `combinePlayerData` apply before using a row:
      `player.Name && player.Name.trim()`. */
  predicate Accepted(row: Row) {
    Truthy(row, "Name") && Trim(row["Name"]) != ""
  }

  /** The displayed name of an accepted row. */
  function RowName(row: Row): string
    requires Accepted(row)
  {
    CleanName(row["Name"])
  }

  /** The key an accepted row is joined under. */
  function RowId(row: Row): string
    requires Accepted(row)
  {
    CreatePlayerId(RowName(row))
  }

  /** A cell holding the decimal rendering of a non-zero number, possibly with
      a non-numeric suffix, reads back as that number. */
  lemma IntOrReadsBack(row: Row, key: string, d: int, n: int, tail: string)
    requires n != 0
    requires tail == [] || (!IsDecDigit(tail[0]) && tail[0] != 'x' && tail[0] != 'X')
    requires key in row && row[key] == IntToString(n) + tail
    ensures IntOr(row, key, d) == n
  {
    ParseIntRoundTrip(n, tail);
  }

  /** A cell without a single digit gives the default. */
  lemma IntOrNoDigits(row: Row, key: string, d: int)
    requires key in row && forall i :: 0 <= i < |row[key]| ==> !IsDecDigit(row[key][i])
    ensures IntOr(row, key, d) == d
  {
  }

  /** The row filter is exactly "the name has a character other than whitespace". */
  lemma AcceptedIff(row: Row)
    ensures Accepted(row) <==> "Name" in row && !AllSpace(row["Name"])
  {
    if "Name" in row {
      TrimEmptyIffAllSpace(row["Name"]);
    }
  }

  /** A name made only of quote characters passes the filter (it is not blank)
      but yields the empty name and the empty id. */
  lemma QuoteOnlyRow(row: Row)
    requires "Name" in row && |row["Name"]| > 0
    requires forall i :: 0 <= i < |row["Name"]| ==> IsQuote(row["Name"][i])
    ensures Accepted(row) && RowName(row) == "" && RowId(row) == ""
  {
    QuoteOnlyName(row["Name"]);
  }
}

=== FILE: seqs.dfy ===
/** Generic sequence vocabulary shared by the name normalisation, the join and
    the list view: order-preserving filtering, counting, subsequences,
    first-occurrence de-duplication and substring search. */
module Seqs {

  /** Keeps the elements satisfying `p`, in their original order
      (JavaScript's `Array.prototype.filter`, or a global regex delete on a string). */
  function Filter<T>(p: T -> bool, s: seq<T>): (r: seq<T>)
    ensures |r| <= |s|
  {
    if |s| == 0 then [] else (if p(s[0]) then [s[0]] else []) + Filter(p, s[1..])
  }

  /** Everything the filter keeps satisfies `p`, and an element survives
      exactly when it occurs in `s` and satisfies `p`. */
  lemma {:induction false} FilterMembers<T>(p: T -> bool, s: seq<T>)
    ensures forall i :: 0 <= i < |Filter(p, s)| ==> p(Filter(p, s)[i])
    ensures forall x :: x in Filter(p, s) <==> x in s && p(x)
  {
    if |s| > 0 {
      FilterMembers(p, s[1..]);
    }
  }

  /** Number of elements satisfying `p`. */
  function Count<T>(p: T -> bool, s: seq<T>): (n: nat)
    ensures n <= |s|
    ensures n == 0 <==> forall i :: 0 <= i < |s| ==> !p(s[i])
  {
    if |s| == 0 then 0 else (if p(s[0]) then 1 else 0) + Count(p, s[1..])
  }

  /** `a` can be obtained from `b` by deleting elements (greedy matching is complete). */
  predicate IsSubseq<T(==)>(a: seq<T>, b: seq<T>)
    decreases |b|
  {
    if |a| == 0 then true
    else if |b| == 0 then false
    else if a[0] == b[0] then IsSubseq(a[1..], b[1..])
    else IsSubseq(a, b[1..])
  }

  /** No element occurs twice. */
  predicate Distinct<T(==)>(s: seq<T>) {
    forall i, j :: 0 <= i < j < |s| ==> s[i] != s[j]
  }

  /** The first occurrence of every element, in order of first appearance: the
      key order of a JavaScript `Map` after `set` has been called with the keys of `s`. */
  function Dedup<T(==,!new)>(s: seq<T>): (r: seq<T>)
    ensures forall x :: x in r <==> x in s
    ensures Distinct(r)
  {
    if |s| == 0 then []
    else
      var d := Dedup(s[..|s| - 1]);
      assert s == s[..|s| - 1] + [s[|s| - 1]];
      if s[|s| - 1] in d then d else d + [s[|s| - 1]]
  }

  /** `t` occurs contiguously in `s` (JavaScript's `String.prototype.includes`). */
  predicate IsInfix<T(==)>(t: seq<T>, s: seq<T>) {
    t <= s || (|s| > 0 && IsInfix(t, s[1..]))
  }

  /** The index of the first element satisfying `p`, `|s|` when there is none
      (what `Array.prototype.find` looks at). */
  function FirstIndex<T>(p: T -> bool, s: seq<T>): (k: nat)
    ensures k <= |s|
    ensures forall j :: 0 <= j < k ==> !p(s[j])
    ensures k < |s| ==> p(s[k])
  {
    if |s| == 0 then 0
    else if p(s[0]) then 0
    else 1 + FirstIndex(p, s[1..])
  }

  lemma {:induction false} FilterConcat<T>(p: T -> bool, a: seq<T>, b: seq<T>)
    ensures Filter(p, a + b) == Filter(p, a) + Filter(p, b)
  {
    if |a| == 0 {
      assert a + b == b;
    } else {
      var ab := a + b;
      assert ab[0] == a[0] && ab[1..] == a[1..] + b;
      FilterConcat(p, a[1..], b);
      assert Filter(p, ab) == (if p(a[0]) then [a[0]] else []) + Filter(p, a[1..] + b);
      assert Filter(p, a) == (if p(a[0]) then [a[0]] else []) + Filter(p, a[1..]);
    }
  }

  /** The filter keeps its input in order: the result is a subsequence. */
  lemma {:induction false} FilterIsSubseq<T>(p: T -> bool, s: seq<T>)
    ensures IsSubseq(Filter(p, s), s)
  {
    if |s| > 0 {
      FilterIsSubseq(p, s[1..]);
      var rest := Filter(p, s[1..]);
      FilterMembers(p, s[1..]);
      if p(s[0]) {
        assert Filter(p, s) == [s[0]] + rest;
        assert Filter(p, s)[1..] == rest;
      } else {
        assert Filter(p, s) == rest;
        if |rest| > 0 {
          assert p(rest[0]);
          assert rest[0] != s[0];
        }
      }
    }
  }

  /** A filter whose predicate holds everywhere is the identity. */
  lemma {:induction false} FilterKeepsAll<T>(p: T -> bool, s: seq<T>)
    requires forall i :: 0 <= i < |s| ==> p(s[i])
    ensures Filter(p, s) == s
  {
    if |s| > 0 {
      FilterKeepsAll(p, s[1..]);
    }
  }

  /** Counting with `p` and with its negation splits the sequence in two. */
  lemma {:induction false} CountPartition<T>(p: T -> bool, q: T -> bool, s: seq<T>)
    requires forall i :: 0 <= i < |s| ==> q(s[i]) == !p(s[i])
    ensures Count(p, s) + Count(q, s) == |s|
  {
    if |s| > 0 {
      CountPartition(p, q, s[1..]);
    }
  }

  /** The count is the length of the filtered sequence. */
  lemma {:induction false} CountIsFilterLength<T>(p: T -> bool, s: seq<T>)
    ensures Count(p, s) == |Filter(p, s)|
  {
    if |s| > 0 {
      CountIsFilterLength(p, s[1..]);
    }
  }

  /** The empty sequence occurs in every sequence. */
  lemma EmptyIsInfix<T>(s: seq<T>)
    ensures IsInfix([], s)
  {
  }

  /** Appending an element moves the first match only when there was none. */
  /** The search tests the head first. */
  lemma {:induction false} FirstIndexCons<T>(p: T -> bool, x: T, s: seq<T>)
    ensures FirstIndex(p, [x] + s) == if p(x) then 0 else 1 + FirstIndex(p, s)
  {
    var all := [x] + s;
    assert all[0] == x;
    assert all[1..] == s;
  }

  /** Taking out an element that does not match leaves the first match unchanged. */
  lemma {:induction false} FirstIndexSkip<T>(p: T -> bool, a: seq<T>, x: T, b: seq<T>)
    requires !p(x)
    ensures FirstIndex(p, a + [x] + b) < |a + [x] + b| <==> FirstIndex(p, a + b) < |a + b|
    ensures FirstIndex(p, a + b) < |a + b| ==>
              (a + [x] + b)[FirstIndex(p, a + [x] + b)] == (a + b)[FirstIndex(p, a + b)]
  {
    if |a| == 0 {
      assert a + [x] + b == [x] + b;
      assert a + b == b;
      FirstIndexCons(p, x, b);
      var k := FirstIndex(p, b);
      if k < |b| {
        assert ([x] + b)[k + 1] == b[k];
      }
    } else {
      var h := a[0];
      var l := a[1..] + [x] + b;
      var m := a[1..] + b;
      FirstIndexSkip(p, a[1..], x, b);
      assert a + [x] + b == [h] + l;
      assert a + b == [h] + m;
      FirstIndexCons(p, h, l);
      FirstIndexCons(p, h, m);
      if !p(h) {
        var i := FirstIndex(p, l);
        var j := FirstIndex(p, m);
        if j < |m| {
          assert ([h] + l)[i + 1] == l[i];
          assert ([h] + m)[j + 1] == m[j];
        }
      }
    }
  }

  lemma FirstIndexSnoc<T>(p: T -> bool, s: seq<T>, x: T)
    ensures FirstIndex(p, s + [x]) ==
              if FirstIndex(p, s) < |s| then FirstIndex(p, s)
              else if p(x) then |s|
              else |s| + 1
  {
    var all := s + [x];
    assert forall j :: 0 <= j < |s| ==> all[j] == s[j];
    assert all[|s|] == x;
  }
}

=== FILE: text.dfy ===
/** The JavaScript string primitives the pages rely on: the whitespace class
    shared by regex `\s` and `String.prototype.trim`, trimming, and lower-casing. */
module Text {

  /** JavaScript's WhiteSpace and LineTerminator characters: exactly what regex `\s`
      matches and what `trim` removes (tab, line feed, vertical tab, form feed,
      carriage return, space, no-break space, the Unicode space separators,
      line and paragraph separators, and the byte-order mark). */
  predicate IsSpace(c: char) {
    || c == ' ' || c == '\t' || c == '\n' || c == '\U{000B}' || c == '\U{000C}' || c == '\r'
    || c == '\U{00A0}' || c == '\U{1680}' || ('\U{2000}' <= c <= '\U{200A}')
    || c == '\U{2028}' || c == '\U{2029}' || c == '\U{202F}' || c == '\U{205F}'
    || c == '\U{3000}' || c == '\U{FEFF}'
  }

  predicate AllSpace(s: string) {
    forall i :: 0 <= i < |s| ==> IsSpace(s[i])
  }

  /** Drops the leading whitespace. */
  function TrimStart(s: string): (r: string)
    ensures |r| <= |s|
  {
    if |s| > 0 && IsSpace(s[0]) then TrimStart(s[1..]) else s
  }

  /** What `TrimStart` leaves is a suffix of `s`, not starting with whitespace,
      and everything it removed was whitespace. */
  lemma {:induction false} TrimStartShape(s: string)
    ensures var r := TrimStart(s);
            && r == s[|s| - |r|..]
            && AllSpace(s[..|s| - |r|])
            && (r == [] || !IsSpace(r[0]))
  {
    if |s| > 0 && IsSpace(s[0]) {
      TrimStartShape(s[1..]);
    }
  }

  /** Drops the trailing whitespace. */
  function TrimEnd(s: string): (r: string)
    ensures |r| <= |s|
  {
    if |s| > 0 && IsSpace(s[|s| - 1]) then TrimEnd(s[..|s| - 1]) else s
  }

  /** What `TrimEnd` leaves is a prefix of `s`, not ending with whitespace,
      and everything it removed was whitespace. */
  lemma {:induction false} TrimEndShape(s: string)
    ensures var r := TrimEnd(s);
            && r == s[..|r|]
            && AllSpace(s[|r|..])
            && (r == [] || !IsSpace(r[|r| - 1]))
  {
    if |s| > 0 && IsSpace(s[|s| - 1]) {
      TrimEndShape(s[..|s| - 1]);
    }
  }

  /** `String.prototype.trim`: removes the whitespace at both ends and nothing else. */
  function Trim(s: string): (r: string)
    ensures |r| <= |s|
    ensures r == [] || (!IsSpace(r[0]) && !IsSpace(r[|r| - 1]))
    ensures forall c :: c in r ==> c in s
  {
    var t := TrimStart(s);
    TrimStartShape(s);
    SliceMembers(s, |s| - |t|, |s|);
    var r := TrimEnd(t);
    TrimEndShape(t);
    SliceMembers(t, 0, |r|);
    r
  }

  lemma SliceMembers(s: string, i: nat, j: nat)
    requires i <= j <= |s|
    ensures forall c :: c in s[i..j] ==> c in s
  {
  }

  /** The trimmed string is the infix of `s` starting at `i`, with only
      whitespace before and after it. */
  lemma TrimIsInfix(s: string) returns (i: nat)
    ensures i + |Trim(s)| <= |s|
    ensures Trim(s) == s[i..i + |Trim(s)|]
    ensures AllSpace(s[..i]) && AllSpace(s[i + |Trim(s)|..])
  {
    var t := TrimStart(s);
    var r := TrimEnd(t);
    TrimStartShape(s);
    TrimEndShape(t);
    i := |s| - |t|;
    assert t == s[i..];
    assert r == t[..|r|];
    assert s[i + |r|..] == t[|r|..];
  }

  /** `trim` leaves nothing exactly when the string is all whitespace
      (the source's `name.trim()` truthiness test). */
  lemma TrimEmptyIffAllSpace(s: string)
    ensures Trim(s) == [] <==> AllSpace(s)
  {
    var t := TrimStart(s);
    if AllSpace(s) {
      AllSpaceTrimsToEmpty(s);
    } else {
      TrimStartKeepsNonSpace(s);
      TrimEndShape(t);
    }
  }

  lemma AllSpaceTrimsToEmpty(s: string)
    requires AllSpace(s)
    ensures TrimStart(s) == []
  {
  }

  lemma TrimStartKeepsNonSpace(s: string)
    requires !AllSpace(s)
    ensures !AllSpace(TrimStart(s))
  {
  }

  /** A string without whitespace at either end is its own trim. */
  lemma TrimOfTrimmed(s: string)
    requires s == [] || (!IsSpace(s[0]) && !IsSpace(s[|s| - 1]))
    ensures Trim(s) == s
  {
  }

  /** `toLowerCase` on the ASCII range: `A`-`Z` become `a`-`z`, everything else is kept. */
  function LowerChar(c: char): (d: char)
    ensures !('A' <= d <= 'Z')
    ensures 'a' <= d <= 'z' <==> ('a' <= c <= 'z' || 'A' <= c <= 'Z')
    ensures !('A' <= c <= 'Z') ==> d == c
  {
    if 'A' <= c <= 'Z' then (c as int + 32) as char else c
  }

  /** `String.prototype.toLowerCase`, character by character. */
  function Lower(s: string): (r: string)
    ensures |r| == |s|
    ensures forall i :: 0 <= i < |s| ==> r[i] == LowerChar(s[i])
  {
    seq(|s|, i requires 0 <= i < |s| => LowerChar(s[i]))
  }
}

=== FILE: wrappers.dfy ===
/** Optional values: stands in for JavaScript's `undefined`/`null` results
    (a missing CSV column, an `Array.find` that matched nothing, a NaN parse). */
module Wrappers {

  datatype Option<+T> = None | Some(value: T)
}
